=== FILE: README.md ===
# crank request dispatch, modelled in Dafny

crank turns a request path into a call on a tree of controller objects. A
`DispatchState` holds the normalised path, the request parameters, the stack
of controllers visited so far and, at the end, the bound method and the
remainder it receives. Two dispatchers walk the tree:

- `ObjectDispatcher` follows attribute names one path segment at a time. It
  runs each controller's security check, binds `index` or an exposed method
  whose signature accepts what is left, and otherwise searches back up the
  stack for `_default`, `_lookup` or `index`.
- `RestDispatcher` picks a handler from the HTTP verb (which the `_method`
  parameter may override). Before that it looks for sub-resource controllers
  named in the path and records the segments before them as routing
  arguments.

Both rely on a signature matcher, which decides whether a method's argument
list accepts the remainder and the params. They also rely on the helpers that
reconcile the two into call arguments. `odict` is the ordered dictionary of
the same package.

The model is pure: controllers are immutable values, and Python's attribute
reflection is a finite map from names to exposed methods (described by their
signature) or nested controllers. Every dispatch function returns an
`Outcome`: either the final state, or the exception the code raises
(`HTTPNotFound`, `HTTPMethodNotAllowed`, the security hook's error, the
`TypeError` of inspecting a non-method). The recursion through user
`_lookup` methods is bounded by a fuel argument, spent each time a
controller is entered.

Files, one module each:

- `wrappers.dfy`: `Option`, `Result`.
- `text.dfy`: `split`, `join`, `lower`.
- `signature.dfy`: the matcher and the argument helpers of `crank/dispatcher.py`.
- `controllers.dfy`: the controller tree.
- `dispatch_state.dfy`: `crank/dispatchstate.py`.
- `dispatch.dfy`: both dispatch algorithms, as mutually recursive functions.
- `object_rules.dfy`: properties of object dispatch.
- `rest_rules.dfy`: properties of REST dispatch.
- `odict.dfy`: `crank/util.py`.
- `scenarios.dfy`: the controllers and requests of the repository's tests, with the outcomes they expect.

Every dispatch function guarantees two things:

- **Soundness.** A resolved outcome binds a method its owner really exposes, with a remainder. The verb, the params and the root frame are unchanged.
- **Fuel.** When no controller has a `_lookup`, fuel larger than the remaining path is never exhausted.

The object dispatcher imports `method_matches_args` with a `(method, params,
remainder, lax)` signature from `crank/util.py`. That version of `util.py`
is not part of this model. The REST dispatcher calls a `_method_matches_args`
that no shown file defines. Both are modelled by the one matcher of
`crank/dispatcher.py:89-139`, so `_use_lax_params` has no effect.

For the same reason, the model follows the code and not these tests:

- `tests/test_util.py`'s signature tests exercise the other `util.py`.
- `tests/test_objectdispatcher.py:80-84` expects `_default`. The shown matcher binds `index` there; see `Scenarios.UnrelatedParamsScenario`.
- `tests/test_restdispatcher.py:37-60` call `_dispatch(state)` with no remainder. `RestDispatcher._dispatch` (`crank/restdispatcher.py:206`) takes the remainder as a required argument, so those calls raise `TypeError`. The `Scenarios.Rest*` lemmas start from the whole path through `Dispatchers.Resolve`, as `ObjectDispatcher._dispatch` does when no remainder is given.

## Model

| member | source | states |
|---|---|---|
| Text.Split | crank/dispatchstate.py:31-33 | `str.split` on a one-character separator: at least one piece, and no piece contains the separator |
| Text.JoinSplit | crank/dispatchstate.py:31-33 | splitting loses nothing: joining the pieces with the separator gives back the string |
| Text.SplitJoin | crank/dispatchstate.py:31-33 | splitting a join of separator-free pieces gives back exactly those pieces |
| Text.Lower | crank/restdispatcher.py:212 | each of 'A'..'Z' becomes the character 32 code points later, every other character is kept, and no upper-case ASCII letter remains |
| Text.LowerIdempotent | crank/restdispatcher.py:212-218 | lower-casing an already lower-cased verb changes nothing |
| Signature.MethodMatchesArgs | crank/dispatcher.py:89-139 | the step-by-step check agrees with the closed form `Matches`: a remainder shorter than the required names needs the uncovered required names among the params; a longer one needs `*args` or enough positional names |
| Signature.LongRemainderRejected | crank/dispatcher.py:130-132 | more remainder items than positional names are refused unless the method takes `*args` |
| Signature.ShortRemainderMissingName | crank/dispatcher.py:114-120 | a required name that neither the remainder reaches nor the params hold makes the match fail |
| Signature.MatchesIgnoresUnrelated | crank/dispatcher.py:122-138 | the verdict depends only on the names, the default count, `*args` and which required names the params hold; `**kw` and other params make no difference |
| Signature.RemoveArgspecParams | crank/dispatcher.py:22-68 | nothing changes without positional names or remainder; otherwise `KeyError` exactly when a required name the remainder covers is missing from params, reporting the first such name. On success, each covered required slot takes its param, truthy uncovered required params are appended in order, each optional slot the remainder reaches takes its param if present, and exactly the visited names leave the params |
| Signature.RequiredPass | crank/dispatcher.py:50-59 | the first pass: covered slots replaced, truthy uncovered values appended, required names deleted; `KeyError` iff a covered name is missing, reporting the first such name |
| Signature.ReplaceCovered | crank/dispatcher.py:53-55 | the covered required names overwrite their remainder slots; otherwise the error names the first covered required name missing from params, the lookup that raises `KeyError` |
| Signature.AppendUncovered | crank/dispatcher.py:56-59 | the uncovered required names append their truthy values and all leave the params |
| Signature.OptionalPass | crank/dispatcher.py:61-66 | each optional name lined up with a remainder slot replaces that slot when present in params and is deleted; no other slot changes |
| Signature.GetParamsWithArgspec | crank/dispatcher.py:78-87 | the params, plus each positional name the remainder reaches set to its remainder item; other params untouched |
| Controllers.ActionOf | crank/objectdispatcher.py:164 | `getattr` of an exposed name yields a method its controller exposes under that name |
| Controllers.FindFirstExposed | crank/restdispatcher.py:17-20 | nothing is found iff no candidate is exposed; otherwise the result is exposed and no earlier candidate is |
| DispatchState.RawSegments | crank/dispatchstate.py:27-33 | a given list is kept; `path_info` minus its first character, or a given string, is cut into '/'-free pieces that join back to it |
| DispatchState.StripLeading | crank/dispatchstate.py:34-38 | exactly one leading empty segment is dropped, if present |
| DispatchState.StripTrailing | crank/dispatchstate.py:39-43 | the result is a prefix that drops only empty segments and does not end in one |
| DispatchState.RestoredStripExtension | crank/dispatchstate.py:45-53 | putting the extension back after `StripExtension` gives the segments it started from |
| DispatchState.StripExtension | crank/dispatchstate.py:45-53 | an extension is taken iff the last segment contains '.'; it is '.'-free, and segment + '.' + extension is the old last segment |
| DispatchState.Normalize | crank/dispatchstate.py:34-53 | with the extension put back, the path is the raw segments less at most one leading empty segment and all trailing ones; the extension is split off exactly when that last segment holds a '.', and has none itself; without one the path does not end in an empty segment |
| DispatchState.NormalizePath | crank/dispatchstate.py:27-53 | the same for the segments of the request path, the given string or the given list |
| DispatchState.DropIgnored | crank/dispatchstate.py:58-68 | the params keep exactly the keys not ignored, with their values |
| DispatchState.NewState | crank/dispatchstate.py:24-77 | a fresh state carries the request verb and the normalised path and extension of the request path (see `DispatchState.NormalizePath`), has the root as its only frame at '/', no routing arguments, no method, no remainder, and the params minus the ignored keys |
| DispatchState.AddController | crank/dispatchstate.py:79-82 | the controller is pushed and becomes current; nothing else changes |
| DispatchState.AddMethod | crank/dispatchstate.py:84-87 | the method and remainder are recorded; nothing else changes |
| DispatchState.AssignFixed | crank/dispatchstate.py:94-98 | each fixed name the remainder reaches is bound to its item; other keys keep their values |
| DispatchState.AddRoutingArgsAsWritten | crank/dispatchstate.py:89-101 | as written: the fixed names the remainder reaches are bound to their items; with `*args`, the tail from the last fixed index (not past it) is stored under the mount point; the new key set is exactly the old keys, the reached fixed names and (only when a tail is stored) the mount point; other keys unchanged |
| DispatchState.AddRoutingArgs | crank/dispatchstate.py:89-101 | fixed names bound to their items; with `*args`, the unconsumed tail is stored under the mount point; the new key set is exactly the old keys, the reached fixed names and (only when a tail is stored) the mount point; other keys unchanged |
| DispatchState.ReassembleBound | crank/dispatchstate.py:94-101 | routing arguments that bind each fixed name to its segment, and the mount name to the rest, read back as the segments |
| DispatchState.FixedValuesBound | crank/dispatchstate.py:94-98 | fixed names bound to the leading segments read back as those segments |
| DispatchState.RoutingArgsRoundTrip | crank/dispatchstate.py:89-101 | reading the fixed values and the stored tail back gives exactly the segments the routing arguments were taken from |
| DispatchState.RoutingArgsReadBack | crank/dispatchstate.py:89-101 | the same for a remainder shorter than the fixed names: the names it reaches read back as the whole remainder |
| DispatchState.SplitReadsBack | crank/restdispatcher.py:84-89 | the routing arguments recorded from the segments before a mount segment, the segment, and the segments after it spell the remainder |
| DispatchState.FixedSplitReadsBack | crank/restdispatcher.py:90-95 | without `*args`, the fixed values, the segment past them and the rest spell the remainder |
| DispatchState.AsWrittenDiffersOnlyAtMount | crank/dispatchstate.py:89-101 | the code as written and the corrected version differ only in the value under the mount name, and only with `*args` and a remainder covering every fixed name |
| DispatchState.AsWrittenTailRepeatsLastFixed | crank/dispatchstate.py:94-101 | as written, with distinct fixed names all reached, the stored tail starts with the last fixed segment, and reading back gives one segment too many |
| DispatchState.AsWrittenTailRepeatsFixedSegment | crank/dispatchstate.py:94-101 | as written, `5/x` before `sub` with `get_one(id, *args)` stores `["5", "x"]` under `sub`; `5` is read back twice |
| DispatchState.IntendedTailSkipsFixedSegment | crank/dispatchstate.py:94-101 | the corrected version stores `["x"]`, and the segments read back as `5/x` |
| Dispatchers.DropLast | crank/objectdispatcher.py:110 | Python's `path[:-n]`: a prefix shorter by `n`, empty when `n` exceeds the length |
| Dispatchers.Dispatch | crank/objectdispatcher.py:97 | a controller's own `_dispatch` is sound and does not run out of fuel on lookup-free trees; without `_lookup`, whatever it binds above the controller it started on is `_default` or `index` |
| Dispatchers.ObjectDispatch | crank/objectdispatcher.py:135-176 | sound, and does not run out of fuel on lookup-free trees when fuel exceeds the remainder |
| Dispatchers.DispatchController | crank/objectdispatcher.py:79-99 | entering a controller is sound; it needs one unit of fuel more than the remainder |
| Dispatchers.Fallback | crank/objectdispatcher.py:101-133 | the fallback search is sound and needs no fuel of its own without `_lookup`; it then binds only `_default` or `index`, never deeper than the stack it started from |
| Dispatchers.FallbackLevels | crank/objectdispatcher.py:111-122 | each level of the search is sound; without `_lookup` it binds only `_default` or `index` within the stack |
| Dispatchers.IndexOrBacktrack | crank/objectdispatcher.py:123-132 | the `index` check and the backtracking step are sound; without `_lookup` they bind only `_default` or `index` within the stack |
| Dispatchers.EffectiveVerb | crank/restdispatcher.py:211-225 | refused iff a GET asks to be a PUT or a DELETE; otherwise the lower-cased `_method` when given and non-empty, else the lower-cased request method |
| Dispatchers.RestDispatch | crank/restdispatcher.py:206-235 | REST dispatch is sound and does not run out of fuel on lookup-free trees |
| Dispatchers.FirstController | crank/restdispatcher.py:85-86 | the position of the first segment naming a nested controller, or the length when there is none |
| Dispatchers.CheckForSubControllers | crank/restdispatcher.py:71-95 | a found sub-resource dispatch is sound; without `_lookup` it binds a method of the nested controller or deeper, or a fallback name |
| Dispatchers.DeleteEditOrNew | crank/restdispatcher.py:97-111 | something is selected only for a trailing `new`, `edit` or `delete`; it binds exactly the trailing segment's own method (`new` for `new`, `edit` for `edit`, `get_delete` for `delete`), exposed, with that segment dropped, on the same stack |
| Dispatchers.CustomGet | crank/restdispatcher.py:113-126 | something is selected only for a trailing custom action `a`; it binds `get_a` or `a`, exposed, and `get_a` whenever that is exposed, with the segment dropped, on the same stack |
| Dispatchers.HandleGet | crank/restdispatcher.py:153-197 | the GET handler is sound; without `_lookup`, nothing bound above the controller it started on is anything but `_default` or `index` |
| Dispatchers.HandlePutOrPost | crank/restdispatcher.py:26-44 | the PUT/POST handler is sound; without `_lookup`, nothing bound above the controller it started on is anything but `_default` or `index` |
| Dispatchers.HandleDelete | crank/restdispatcher.py:46-69 | the DELETE handler is sound; without `_lookup`, nothing bound above the controller it started on is anything but `_default` or `index` |
| Dispatchers.HandleCustomMethod | crank/restdispatcher.py:128-151 | the handler of any other verb is sound; without `_lookup`, nothing bound above the controller it started on is anything but `_default` or `index` |
| Dispatchers.HandleNamedVerb | crank/restdispatcher.py:128-151 | the body shared by DELETE and other verbs is sound; without `_lookup`, nothing bound above the controller it started on is anything but `_default` or `index` |
| Dispatchers.Resolve | crank/objectdispatcher.py:143-144 | dispatching a fresh state from its root over the whole path is sound and, on lookup-free trees, completes with fuel longer than the path; without `_lookup`, nothing bound above the controller it started on is anything but `_default` or `index` |
| ObjectRules.SecurityCheckedFirst | crank/objectdispatcher.py:145-148 | a rejecting current controller stops dispatch before anything is matched |
| ObjectRules.RejectingChildStops | crank/objectdispatcher.py:89-99 | a rejecting child stops dispatch whether it dispatches on its own or is walked by an object dispatcher |
| ObjectRules.IndexOnEmptyRemainder | crank/objectdispatcher.py:150-154 | with no path left, a matching `index` is bound with nothing |
| ObjectRules.ExposedHeadBinds | crank/objectdispatcher.py:161-167 | a head naming an exposed method that accepts the tail binds it with the tail |
| ObjectRules.AttributeHeadDescends | crank/objectdispatcher.py:169-173 | otherwise any attribute named by the head is entered with the tail, even a method whose signature failed |
| ObjectRules.SelfDispatchingChildTakesOver | crank/objectdispatcher.py:89-97 | a child with its own `_dispatch` is pushed, becomes the dispatcher and takes over |
| ObjectRules.PlainChildContinues | crank/objectdispatcher.py:98-99 | any other child is pushed and walked by the same dispatcher |
| ObjectRules.FallbackTrimsPath | crank/objectdispatcher.py:108-111 | the unconsumed remainder is cut off the end of the path, and the two still spell the path |
| ObjectRules.DefaultWins | crank/objectdispatcher.py:113-116 | an exposed `_default` wins at its level and receives the remainder as it stands |
| ObjectRules.LookupRetriedOnlyForNewClass | crank/objectdispatcher.py:117-122 | a `_lookup` result is entered only when its class differs from the last one handed over to |
| ObjectRules.FallbackIndexOrBacktrack | crank/objectdispatcher.py:123-132 | a matching `index` is bound; otherwise one frame is popped and the last path segment moves to the front of the remainder, keeping path + remainder |
| ObjectRules.FallbackLevelsNotFound | crank/objectdispatcher.py:111-133 | a stack with no `_default`, `_lookup` or `index` ends in `HTTPNotFound` after one pass |
| ObjectRules.FallbackNotFound | crank/objectdispatcher.py:101-133 | the whole search ends in `HTTPNotFound` on such a stack |
| ObjectRules.FallbackLevelsKeepsSegments | crank/objectdispatcher.py:111-133 | without `_lookup`, a bound action's path followed by its remainder is the path and remainder the search started from |
| ObjectRules.FallbackKeepsSegments | crank/objectdispatcher.py:101-133 | the search, started from a remainder that ends the path, binds an action whose path and remainder spell the original path |
| ObjectRules.TraversalBindsMethod | crank/objectdispatcher.py:159-173 | a path through plain nested controllers, then an exposed name whose signature accepts the tail, binds that method with that tail, one frame per segment above the old stack |
| RestRules.EffectiveVerbLowerCase | crank/restdispatcher.py:211-225 | the verb a REST dispatcher handles is always lower case |
| RestRules.GetCannotPoseAsPutOrDelete | crank/restdispatcher.py:219-223 | a GET is never handled as PUT or DELETE; for any dispatcher, state and remainder, asking for either through `_method` is `HTTPMethodNotAllowed` |
| RestRules.VerbComputedOnce | crank/restdispatcher.py:211-225 | the verb is stored in the state the first time, and dispatch continues as if it had been there |
| RestRules.StoredVerbPicksHandler | crank/restdispatcher.py:227-235 | after the sub-controller check, the stored verb alone picks the handler: get, put/post, delete, or the custom handler |
| RestRules.VarArgsSplitsAtFirstController | crank/restdispatcher.py:84-89 | with `*args`, the first segment naming a nested controller splits the remainder into routing arguments and the controller's remainder |
| RestRules.VarArgsSplitReadsBack | crank/restdispatcher.py:84-89 | with `*args`, the routing arguments recorded for the first nested controller, its segment and the segments it receives spell the remainder |
| RestRules.FixedArgsSplitAtArity | crank/restdispatcher.py:90-95 | without `*args`, only the segment just past the fixed arguments can name the nested controller; otherwise dispatch stays put |
| RestRules.FixedArgsSplitReadsBack | crank/restdispatcher.py:90-95 | without `*args`, the fixed values recorded, the nested controller's segment and the segments it receives spell the remainder |
| RestRules.SubControllersBeforeHandlers | crank/restdispatcher.py:227-229 | a sub-resource controller is found before any verb handler runs |
| RestRules.GetWithEmptyRemainder | crank/restdispatcher.py:155-165 | GET with no path: `get_all`, else `get`, bound unchecked; else a matching `get_one`; else the fallback search |
| RestRules.GetTrailingSuffix | crank/restdispatcher.py:97-111 | a trailing `new`, `edit` or `delete` binds `new`, `edit` or `get_delete` with the segment dropped |
| RestRules.CustomGetPrefersGetPrefix | crank/restdispatcher.py:113-126 | for a custom action `a`, an exposed `get_a` is the one tried |
| RestRules.GetOnePreferredOverGet | crank/restdispatcher.py:186-197 | a head naming nothing binds `get_one` (before `get`) with the whole remainder when it matches, else falls back |
| RestRules.PutPostExposedHeadUnchecked | crank/restdispatcher.py:28-32 | PUT and POST bind an exposed head without checking its signature |
| RestRules.PutPostOtherwise | crank/restdispatcher.py:34-44 | otherwise a nested controller is entered, else the verb-named method if it matches, else the fallback search |
| RestRules.DeleteTriesFirstExposedOnly | crank/restdispatcher.py:46-57 | when `post_delete` is exposed but does not match, `delete` is never tried, and an exposed head is refused |
| RestRules.NamedVerbRules | crank/restdispatcher.py:128-151 | DELETE and other verbs bind the first exposed `post_v`/`v` when it matches; an exposed head is refused; a head naming another attribute is entered with the rest |
| RestRules.GetBindsOnlyGetNames | crank/restdispatcher.py:97-197 | without `_lookup`, a GET resolved at its own controller binds `get_all`, `get`, `get_one`, the exposed head, the method of a trailing `new`/`edit`/`delete`, `get_a` or `a` for a trailing custom action `a`, or `_default`/`index` |
| RestRules.PutPostBindsOnlyVerbOrHead | crank/restdispatcher.py:26-44 | without `_lookup`, PUT or POST resolved at its own controller binds the verb's method, the exposed head, or `_default`/`index` |
| RestRules.NamedVerbBindsOnlyCandidates | crank/restdispatcher.py:46-69 | without `_lookup`, DELETE resolved at its own controller binds only `post_delete`, `delete`, `_default` or `index`, and another verb only its two candidates or those |
| Odict.Empty | crank/util.py:21-23 | a new odict has no keys and no entries |
| Odict.Set | crank/util.py:25-27 | assignment appends the key to the ordering, maps it to the value, and leaves other entries alone |
| Odict.Get | crank/util.py:25-27 | lookup succeeds iff the key has an entry, else `KeyError` |
| Odict.Keys | crank/util.py:29-30 | `keys()` is the listing itself, not the set of entries; its assignment order, repeats included, is stated by `Odict.Set` (`Keys(d') == Keys(d) + [k]`) and `Odict.KeysFollowAssignments` |
| Odict.Clear | crank/util.py:32-34 | `clear()` leaves no keys and no entries |
| Odict.GetItem | crank/util.py:36-37 | `getitem(n)` reads the n-th listed key with Python's negative indices, `IndexError` out of range |
| Odict.Items | crank/util.py:42-47 | `items()` pairs each listed key with its value, in listing order; `KeyError` iff a listed key has no entry |
| Odict.Values | crank/util.py:49-51 | `itervalues()` gives each listed key's value, in listing order; `KeyError` iff a listed key has no entry |
| Odict.ItemsOf | crank/util.py:42-47 | the items pair each listed key with its value, in order, or `KeyError` iff some listed key has no entry |
| Odict.IndexOf | crank/util.py:63 | the position of the first occurrence |
| Odict.IndexOfFirst | crank/util.py:63 | no occurrence comes before the one `list.remove` finds |
| Odict.RemoveFirst | crank/util.py:63 | `list.remove` drops the first occurrence and keeps the rest in order; a missing element changes nothing |
| Odict.RemoveAll | crank/util.py:60-63 | every occurrence dropped; every other element kept as often as before |
| Odict.RemoveAllSnoc | crank/util.py:60-63 | removing every occurrence keeps the order of the rest |
| Odict.PopAsWritten | crank/util.py:60-63 | `pop()` as written: succeeds iff the last listed key has an entry; `IndexError` when empty, `KeyError` for an entry-less last key, else that key's entry and its first listing removed |
| Odict.Pop | crank/util.py:60-63 | the corrected `pop()`: succeeds iff the last listed key has an entry; then the last key's entry and every listing of it removed, the other listings kept in order |
| Odict.KeysOf | crank/util.py:25-27 | the keys of a run of assignments, in order |
| Odict.SetThenGet | crank/util.py:25-27 | after `d[k] = v`, `d[k]` is `v` |
| Odict.AssignAllOrdering | crank/util.py:25-27 | each assignment in a run appends one listing of its key |
| Odict.KeysFollowAssignments | crank/util.py:29-30 | `keys()` lists the assigned keys in assignment order, repeats included |
| Odict.SetKeepsConsistent | crank/util.py:25-27 | assignment keeps every listed key mapped and every mapped key listed |
| Odict.ClearEmpties | crank/util.py:32-34 | after `clear()` the odict is consistent and has no items |
| Odict.ItemsInKeyOrder | crank/util.py:42-51 | on a consistent odict, items and values follow `keys()` order |
| Odict.GetItemNth | crank/util.py:36-37 | `getitem(n)` is the value of the n-th listed key |
| Odict.PopForgetsLastKey | crank/util.py:60-63 | after `pop()` the popped key can no longer be read |
| Odict.PopKeepsConsistent | crank/util.py:60-63 | the corrected `pop()` keeps the odict consistent |
| Odict.RemoveFirstKeepsLaterListing | crank/util.py:63 | `remove` of a last element listed earlier too leaves it last |
| Odict.ListedWithoutEntry | crank/util.py:42-47 | a listed key without an entry makes the odict inconsistent and `items()` raise `KeyError` |
| Odict.PopAsWrittenBreaksRepeatedKey | crank/util.py:60-63 | as written, popping a key listed more than once leaves it listed without an entry, so `items()` raises `KeyError` |
| Odict.RemoveFirstIsRemoveAllWhenLast | crank/util.py:63 | for an element listed only last, removing the first occurrence removes every one |
| Odict.PopAsWrittenAgreesWhenListedOnce | crank/util.py:60-63 | the code as written and the corrected `pop()` agree whenever the last key is listed once |
| Odict.ReassignedIs | crank/util.py:25-27 | `a=1, b=2, a=3` lists `a, b, a` and maps `a` to 3, `b` to 2 |
| Odict.PopAsWrittenLeavesDanglingKey | crank/util.py:60-63 | as written, `pop()` after that leaves `a` listed without an entry, and `items()` raises `KeyError` |
| Odict.PopRemovesReassignedKey | crank/util.py:60-63 | the corrected `pop()` leaves only `b`, and `items()` is `[("b", 2)]` |
| Scenarios.RootPath | tests/test_objectdispatcher.py:74-78 | the request path `/` has no segments |
| Scenarios.SegmentsPath | crank/dispatchstate.py:27-43 | a path of plain segments normalises to those segments, as if given as a list |
| Scenarios.BlankSegmentsScenario | tests/test_dispachstate.py:44-46 | `['', 'a', 'b', '', '']` normalises to `['a', 'b']` |
| Scenarios.StringPathScenario | tests/test_dispachstate.py:77-81 | the string `s1/s2` normalises to `['s1', 's2']` |
| Scenarios.ExtensionPath | tests/test_dispachstate.py:71-75 | `/name.ext` gives the path `[name]` and the extension `ext` |
| Scenarios.RequestIs | crank/dispatchstate.py:24-77 | a request for plain segments starts with those segments as its path, no extension, no remainder, and the root as the only frame |
| Scenarios.UnknownHeadAtRoot | crank/objectdispatcher.py:135-176 | a head segment the root neither exposes nor holds sends the whole remainder into the fallback search from the root |
| Scenarios.WithArgsReachesRoot | crank/objectdispatcher.py:101-176 | `/with_args/a` fails the signature check, finds nothing at `with_args`'s level and backs up to the root with the whole path as remainder |
| Scenarios.IndexScenario | tests/test_objectdispatcher.py:74-78 | `/` binds `index` |
| Scenarios.NoArgsScenario | tests/test_objectdispatcher.py:92-96 | `/no_args` binds `no_args` |
| Scenarios.WithArgsScenario | tests/test_objectdispatcher.py:104-108 | `/with_args/a/b` binds `with_args` with `a`, `b` |
| Scenarios.MissingArgsDefaultScenario | tests/test_objectdispatcher.py:110-114 | `/with_args/a` falls back to `_default` with the whole path |
| Scenarios.MissingArgsNotFoundScenario | tests/test_objectdispatcher.py:116-121 | with no `_default` or `index`, it is not found |
| Scenarios.MissingArgsNoDefaultScenario | tests/test_objectdispatcher.py:123-128 | with only an argument-less `index` on the stack, it is not found |
| Scenarios.MissingArgsIndexScenario | tests/test_objectdispatcher.py:130-134 | with `index(*args)`, it binds `index` with the whole path |
| Scenarios.SecurityScenario | tests/test_objectdispatcher.py:136-140 | a root whose security check raises refuses the request |
| Scenarios.UnrelatedParamsScenario | crank/dispatcher.py:114-138 | params the signature does not name do not stop `/` from binding `index` |
| Scenarios.RestGetAllScenario | tests/test_restdispatcher.py:37-41 | REST `GET /` binds `get_all` |
| Scenarios.RestGetOneScenario | tests/test_restdispatcher.py:43-49 | REST `GET /asdf` binds `get_one` with `asdf`, params empty |
| Scenarios.RestSimpleGetScenario | tests/test_restdispatcher.py:56-60 | REST `GET /` on a controller with only `get` binds `get` |

## Left out

- `crank/restcontroller.py`: the decorator class that wires a controller to the REST dispatcher. Only its effect, a controller of REST kind, is modelled.
- The argspec cache and `inspect` reflection (`crank/dispatcher.py:70-76`): a method is given by its signature directly.
- The no-op hooks `_setup_wsgiorg_routing_args` and `_setup_wsgi_script_name`, and the debug log: they have no effect on dispatch.
- Exceptions: `HTTPNotFound`, `HTTPMethodNotAllowed`, the security hook's exception and the `TypeError` are outcomes, not raised objects.
- Dispatchers.HandleNamedVerb: `crank/restdispatcher.py:64-65` and `146-147` set `state.current_controller` and overwrite `state.url_path` with the joined rest, a string; the model keeps the path a list of segments. If the fallback search then runs (`crank/objectdispatcher.py:108-111`), the code cuts as many characters off that string as the remainder has segments (nothing when the remainder is empty), and what happens next depends on what is left. When the string left is non-empty, the first backup inserts its last character into the remainder and then calls `pop()` on the string (`crank/objectdispatcher.py:129-132`), which raises `AttributeError`; DELETE `/sub/ab` with a plain `sub` that has nothing for `ab` is such a case. When the string left is empty, `if len(state.url_path)` skips the move, so backing up pops frames without putting any segment back, and an outer `_default` or `index` receives the remainder as it stood: DELETE `/sub/a` reaches the root's `_default` (reading the current controller as the top of the stack, as the model does) with `['a']` and DELETE `/sub` with `[]`, where the model, backtracking over the unchanged segments, gives `['sub', 'a']` and `['sub']`.
- The `dispatcher=None` start of `ObjectDispatcher._dispatch` (`crank/objectdispatcher.py:140-142`): a state always starts from its root.
- Dispatchers.FallbackLevels: `_last_tried_abstraction` is an attribute of the dispatcher object (`crank/objectdispatcher.py:119-121`). It outlives the request, as `tests/test_objectdispatcher.py:119-127` relies on, and each dispatcher has its own. The model keeps one value in the state: every request starts without one, and all dispatchers of one request share it. A `_lookup` that a previous request already handed over to is therefore entered again in the model.
- Dispatchers.FallbackLevels: the code pops `state.controller_path` (`crank/objectdispatcher.py:130`) but never updates `state.controller`, so later levels test the same controller. The model reads the current controller from the top of the stack, so each level tests the frame it has reached. That is the behaviour `tests/test_objectdispatcher.py:110-114` expects, where `/with_args/a` backs up to the root's `_default`.
- DispatchState.NewState: `path[-1] = ...` (`crank/dispatchstate.py:51`) writes into the list the caller passed as `path_info`, and the ignored names are deleted from the params object itself (`crank/dispatchstate.py:64-68`), which is `request.params` when no params are given. The model returns new values and changes neither input.
- `odict.values()` calls itself without end; only `itervalues()` is modelled (`Odict.Values`).
- `odict.__delete__`, `__slice__` and `__str__`, and constructor arguments: the first two are never reached by `del d[k]` or slicing, and `__str__` only formats. Constructor arguments go through `dict.__init__` (`crank/util.py:21-23`), which bypasses `__setitem__`, so they seed entries without listing them: `keys()` and `items()` omit them, and such an odict starts out not `Consistent`. The model builds every odict from `Empty` and assignments.
- The `Path` descriptor the tests import from `crank/util.py`: that version of `util.py` is not part of this model.
- Text: `lower()` changes only ASCII letters; there is no Unicode case folding.
- Values: params and path segments are strings; truthiness of a param value is "non-empty".
- Dispatchers.Dispatch: recursion through user `_lookup` methods is bounded by fuel. An `OutOfFuel` outcome stands for a dispatch that would not end, or ends past the bound; it is proved impossible only for trees without `_lookup`.
- Signature.RemoveArgspecParams: requires distinct argument names, which Python guarantees for any function.
- Signature.GetParamsWithArgspec: requires distinct argument names, for the same reason.
- Dispatchers.HandleGet: like every dispatch function, its own contract states soundness, the fuel bound, and that it binds only `_default` or `index` above the controller it started on. Which names it binds at that controller is `RestRules.GetBindsOnlyGetNames`. The branch-by-branch behaviour of each handler is proved in the lemmas of `ObjectRules` and `RestRules`.
- Dispatchers.CheckForSubControllers: records the routing arguments with the corrected `DispatchState.AddRoutingArgs`. The code as written (`DispatchState.AddRoutingArgsAsWritten`) stores the `*args` tail from the last fixed index instead; `DispatchState.AsWrittenDiffersOnlyAtMount` proves the two states differ only in that one value.
- RestRules.VarArgsSplitsAtFirstController: states the split with the corrected routing arguments, for the same reason; under the code as written, the value under the mount name also starts with the last fixed segment (`DispatchState.AsWrittenTailRepeatsLastFixed`).
- Dispatchers.HandleNamedVerb: the code only checks that the named attribute is truthy; the model enters any attribute, since every controller and method object is truthy.

## Findings

| source | as written | input that shows it | evidently intended | confidence | as-written member | corrected member |
|---|---|---|---|---|---|---|
| crank/dispatchstate.py:94-101 | after `for i, arg in enumerate(fixed_args)` runs to the end, `i` is the last index, so `remainder[i:]` still holds the last fixed value | `get_one(self, id, *args)`, path `5/x/sub/...`: `routing_args` gets `id=5` and `sub=['5', 'x']` | the tail after the fixed arguments: `sub=['x']` | medium, not executed | DispatchState.AsWrittenTailRepeatsLastFixed | DispatchState.RoutingArgsRoundTrip |
| crank/util.py:60-63 | `pop()` deletes the entry of the last listed key but removes only its FIRST listing | `d['a']=1; d['b']=2; d['a']=3; d.pop()`: `keys()` is `['b', 'a']` and `items()` raises `KeyError` | the key leaves the ordering altogether: `keys()` is `['b']` | medium, not executed | Odict.PopAsWrittenBreaksRepeatedKey | Odict.PopKeepsConsistent |

=== FILE: controllers.dfy ===
/** The controller tree the dispatchers walk. Python's attribute reflection
    (`hasattr`, `getattr`, `ismethod`) becomes a finite map from attribute
    names to either an exposed method, described by its signature, or a
    nested controller. */
module Controllers {
  import opened Wrappers
  import opened Signature

  /** A controller either has no `_dispatch` of its own, or it is itself an
      object dispatcher or a REST dispatcher that takes over traversal. */
  datatype Kind = Plain | ObjectDispatcher | RestDispatcher

  /** A controller object: its class name (what the `_lookup` loop guard compares),
      its kind, whether its `_check_security` rejects the request, its attributes,
      and the `_custom_actions` it declares when it acts as a REST dispatcher. */
  datatype Node = Node(cls: string, kind: Kind, rejects: bool, attrs: map<string, Attr>, customActions: seq<string>)

  /** An attribute: an exposed method, or a nested controller. */
  datatype Attr = Method(sig: Sig) | Sub(node: Node)

  /** A bound action: the method `name` of controller `owner`. */
  datatype Action = Action(owner: Node, name: string, sig: Sig)

  /** The attributes reachable with `getattr`; a method pushed as a controller has none. */
  function AttrsOf(c: Attr): map<string, Attr>
  {
    if c.Sub? then c.node.attrs else map[]
  }

  /** `hasattr(c, name)` */
  predicate HasAttr(c: Attr, name: string)
  {
    name in AttrsOf(c)
  }

  /** `_is_exposed(c, name)`: the attribute exists and is a method. */
  predicate IsExposed(c: Attr, name: string)
  {
    name in AttrsOf(c) && AttrsOf(c)[name].Method?
  }

  /** `_is_controller(c, name)`: the attribute exists and is a nested controller. */
  predicate IsController(c: Attr, name: string)
  {
    name in AttrsOf(c) && AttrsOf(c)[name].Sub?
  }

  /** `hasattr(c, '_dispatch')` */
  predicate SelfDispatching(c: Attr)
  {
    c.Sub? && c.node.kind != Plain
  }

  /** The controller defines `_check_security` and it raises. */
  predicate Rejects(c: Attr)
  {
    c.Sub? && c.node.rejects
  }

  /** The action really is an exposed method of its owner, with the recorded signature. */
  predicate Exposes(a: Action)
  {
    a.name in a.owner.attrs && a.owner.attrs[a.name] == Method(a.sig)
  }

  function SigOf(c: Attr, name: string): Sig
    requires IsExposed(c, name)
  {
    AttrsOf(c)[name].sig
  }

  /** `getattr(c, name)` for an exposed method. */
  function ActionOf(c: Attr, name: string): (a: Action)
    requires IsExposed(c, name)
    ensures Exposes(a) && a.name == name && Sub(a.owner) == c
  {
    Action(c.node, name, SigOf(c, name))
  }

  /** `_find_first_exposed`: the first of `names` that `c` exposes. */
  function FindFirstExposed(c: Attr, names: seq<string>): (r: Option<string>)
    ensures r.None? <==> forall i :: 0 <= i < |names| ==> !IsExposed(c, names[i])
    ensures r.Some? ==> r.value in names && IsExposed(c, r.value)
    ensures r.Some? ==> exists i :: 0 <= i < |names| && names[i] == r.value && IsExposed(c, r.value)
                                    && forall j :: 0 <= j < i ==> !IsExposed(c, names[j])
  {
    if |names| == 0 then None
    else if IsExposed(c, names[0]) then Some(names[0])
    else
      var r := FindFirstExposed(c, names[1..]);
      assert r.Some? ==> exists i :: 1 <= i < |names| && names[i] == r.value && IsExposed(c, r.value)
                                       && forall j :: 0 <= j < i ==> !IsExposed(c, names[j]) by {
        if r.Some? {
          var i :| 0 <= i < |names[1..]| && names[1..][i] == r.value && IsExposed(c, r.value)
                   && forall j :: 0 <= j < i ==> !IsExposed(c, names[1..][j]);
          assert names[i + 1] == r.value;
          assert forall j :: 1 <= j < i + 1 ==> !IsExposed(c, names[j]) by {
            forall j | 1 <= j < i + 1 ensures !IsExposed(c, names[j]) {
              assert names[j] == names[1..][j - 1];
            }
          }
        }
      }
      r
  }

  /** No controller at or below `n` exposes `_lookup`. */
  predicate NoLookup(n: Node)
  {
    && !IsExposed(Sub(n), "_lookup")
    && forall k :: k in n.attrs && n.attrs[k].Sub? ==> NoLookup(n.attrs[k].node)
  }

  predicate NoLookupAttr(c: Attr)
  {
    c.Sub? ==> NoLookup(c.node)
  }
}

=== FILE: dispatch.dfy ===
/** The two dispatch algorithms, object dispatch and REST dispatch, as mutually
    recursive functions over the dispatch state. A controller that defines its
    own `_dispatch` takes over through `DispatchController`, which is also where
    the fuel that bounds user `_lookup` cycles is spent. */
module Dispatchers {
  import opened Wrappers
  import opened Text
  import opened Signature
  import opened Controllers
  import opened DispatchState

  /** How a dispatch ends: a state with a bound action, or the exception the source
      raises (`HTTPNotFound`, `HTTPMethodNotAllowed`, the security hook's error,
      a `TypeError` from inspecting a `get_one`/`get` that is not a method), or,
      in the model only, exhausted fuel. */
  datatype Outcome = Resolved(st: State) | NotFound | MethodNotAllowed | SecurityRejected | NotInspectable | OutOfFuel

  /** A user `_lookup`: from the controller exposing it and the remainder, the
      controller and remainder dispatch continues with. */
  type Lookup = (Node, seq<string>) -> (Node, seq<string>)

  /** A bound state names an exposed method and the remainder it receives. */
  predicate WellBound(st: State)
  {
    st.action.Some? && st.remainder.Some? && Exposes(st.action.value)
  }

  /** What dispatch never changes: the request verb, the params, and the root frame. */
  predicate Keeps(st: State, st': State)
  {
    st'.verb == st.verb && st'.params == st.params && |st.stack| > 0 && |st'.stack| > 0 && st'.stack[0] == st.stack[0]
  }

  predicate Sound(st: State, r: Outcome)
  {
    r.Resolved? ==> Keeps(st, r.st) && WellBound(r.st)
  }

  /** A resolution that ends at most `depth` frames deep binds one of the names
      the fallback search binds: the dispatch functions below only bind other
      names at the controller they were started on or deeper. */
  predicate FallbackBelow(r: Outcome, depth: nat)
  {
    r.Resolved? && |r.st.stack| <= depth ==> r.st.action.Some? && r.st.action.value.name in {"_default", "index"}
  }

  /** A resolution stays within the top `depth` frames and binds a fallback
      name: what the fallback search gives when no `_lookup` is in play. */
  predicate FallbackOnly(r: Outcome, depth: nat)
  {
    r.Resolved? ==> |r.st.stack| <= depth && r.st.action.Some? && r.st.action.value.name in {"_default", "index"}
  }

  /** No controller on the stack, nor anything below one, exposes `_lookup`. */
  predicate NoLookupStack(st: State)
  {
    forall i :: 0 <= i < |st.stack| ==> NoLookupAttr(st.stack[i].controller)
  }

  /** Python's `path[:-n]` for `n > 0`. */
  function DropLast(path: seq<string>, n: nat): (r: seq<string>)
    requires n > 0
    ensures |r| == (if n <= |path| then |path| - n else 0) && r == path[..|r|]
  {
    path[..if n <= |path| then |path| - n else 0]
  }

  /** `_dispatch` of dispatcher `d`: its own algorithm, chosen by its kind. */
  function Dispatch(d: Node, st: State, rem: seq<string>, lookup: Lookup, fuel: nat): (r: Outcome)
    requires |st.stack| > 0
    ensures Sound(st, r)
    ensures NoLookupStack(st) && fuel > |rem| ==> r != OutOfFuel
    ensures NoLookupStack(st) ==> FallbackBelow(r, |st.stack| - 1)
    decreases fuel, 7, 0, 0
  {
    if d.kind == RestDispatcher then RestDispatch(d, st, rem, lookup, fuel)
    else ObjectDispatch(d, st, rem, lookup, fuel)
  }

  /** `ObjectDispatcher._dispatch`: security check, then `index` for an empty
      remainder, an exposed method matching the tail, or descent into the
      attribute named by the head; otherwise the fallback search. */
  function ObjectDispatch(d: Node, st: State, rem: seq<string>, lookup: Lookup, fuel: nat): (r: Outcome)
    requires |st.stack| > 0
    ensures Sound(st, r)
    ensures NoLookupStack(st) && fuel > |rem| ==> r != OutOfFuel
    ensures NoLookupStack(st) ==> FallbackBelow(r, |st.stack| - 1)
    decreases fuel, 6, 0, 0
  {
    var cur := Current(st);
    if Rejects(cur) then SecurityRejected
    else if |rem| == 0 then
      if IsExposed(cur, "index") && Matches(SigOf(cur, "index"), st.params, []) then
        Resolved(AddMethod(st, ActionOf(cur, "index"), []))
      else
        Fallback(d, st, rem, lookup, fuel)
    else if IsExposed(cur, rem[0]) && Matches(SigOf(cur, rem[0]), st.params, rem[1..]) then
      Resolved(AddMethod(st, ActionOf(cur, rem[0]), rem[1..]))
    else if HasAttr(cur, rem[0]) then
      DispatchController(d, rem[0], AttrsOf(cur)[rem[0]], st, rem[1..], lookup, fuel)
    else
      Fallback(d, st, rem, lookup, fuel)
  }

  /** `_dispatch_controller`: push the controller; one with its own `_dispatch`
      first runs its security check, becomes the dispatcher and takes over,
      any other is traversed further by `d`. */
  function DispatchController(d: Node, location: string, c: Attr, st: State, rem: seq<string>, lookup: Lookup, fuel: nat)
    : (r: Outcome)
    requires |st.stack| > 0
    ensures Sound(st, r)
    ensures NoLookupStack(st) && NoLookupAttr(c) && fuel > |rem| + 1 ==> r != OutOfFuel
    ensures NoLookupStack(st) && NoLookupAttr(c) ==> FallbackBelow(r, |st.stack|)
    decreases fuel, 0, 0, 0
  {
    if SelfDispatching(c) && c.node.rejects then SecurityRejected
    else if fuel == 0 then OutOfFuel
    else if SelfDispatching(c) then
      Dispatch(c.node, AddController(st, location, c).(dispatcher := c.node), rem, lookup, fuel - 1)
    else
      Dispatch(d, AddController(st, location, c), rem, lookup, fuel - 1)
  }

  /** `_dispatch_first_found_default_or_lookup`: cut the unconsumed remainder off
      the path, then search the stack from the top, one level per stack entry. */
  function Fallback(d: Node, st: State, rem: seq<string>, lookup: Lookup, fuel: nat): (r: Outcome)
    requires |st.stack| > 0
    ensures Sound(st, r)
    ensures NoLookupStack(st) ==> r != OutOfFuel
    ensures NoLookupStack(st) ==> FallbackOnly(r, |st.stack|)
    decreases fuel, 3, 0, 0
  {
    var trimmed := if |rem| > 0 then st.(path := DropLast(st.path, |rem|)) else st;
    FallbackLevels(d, trimmed, rem, |trimmed.stack|, lookup, fuel)
  }

  /** One level of the fallback search, `levels` iterations of the loop left:
      an exposed `_default` wins with the remainder as it stands; an exposed
      `_lookup` hands over to the controller it returns unless that has the
      class last handed over to. */
  function FallbackLevels(d: Node, st: State, rem: seq<string>, levels: nat, lookup: Lookup, fuel: nat): (r: Outcome)
    requires levels <= |st.stack|
    ensures Sound(st, r)
    ensures NoLookupStack(st) ==> r != OutOfFuel
    ensures NoLookupStack(st) ==> FallbackOnly(r, |st.stack|)
    decreases fuel, 2, levels, 1
  {
    if levels == 0 then NotFound
    else
      var cur := Current(st);
      if IsExposed(cur, "_default") then
        Resolved(AddMethod(st, ActionOf(cur, "_default"), rem).(dispatcher := d))
      else if IsExposed(cur, "_lookup") then
        var (next, rem') := lookup(cur.node, rem);
        if st.lastTried != Some(next.cls) then
          DispatchController(d, "_lookup", Sub(next), st.(lastTried := Some(next.cls)), rem', lookup, fuel)
        else
          IndexOrBacktrack(d, st, Sub(next), rem', levels, lookup, fuel)
      else
        IndexOrBacktrack(d, st, cur, rem, levels, lookup, fuel)
  }

  /** The rest of a fallback level: a matching `index` of `c` is bound; otherwise
      the top entry is popped and the last consumed path segment goes back in
      front of the remainder. */
  function IndexOrBacktrack(d: Node, st: State, c: Attr, rem: seq<string>, levels: nat, lookup: Lookup, fuel: nat)
    : (r: Outcome)
    requires 0 < levels <= |st.stack|
    ensures Sound(st, r)
    ensures NoLookupStack(st) ==> r != OutOfFuel
    ensures NoLookupStack(st) ==> FallbackOnly(r, |st.stack|)
    decreases fuel, 2, levels, 0
  {
    if IsExposed(c, "index") && Matches(SigOf(c, "index"), st.params, rem) then
      Resolved(AddMethod(st, ActionOf(c, "index"), rem).(dispatcher := d))
    else
      var popped := st.(stack := st.stack[..|st.stack| - 1]);
      if |st.path| > 0 then
        FallbackLevels(d, popped.(path := st.path[..|st.path| - 1]), [st.path[|st.path| - 1]] + rem, levels - 1, lookup, fuel)
      else
        FallbackLevels(d, popped, rem, levels - 1, lookup, fuel)
  }

  /** The verb a REST dispatcher handles: the lower-cased request method, or the
      lower-cased `_method` param when one is given, except that a GET may not
      pose as a PUT or a DELETE. */
  function EffectiveVerb(verb: string, params: map<string, string>): (r: Result<string, ()>)
    ensures r.Failure? <==> Lower(verb) == "get" && "_method" in params && Lower(params["_method"]) in {"put", "delete"}
    ensures r.Success? && "_method" in params && params["_method"] != "" ==> r.value == Lower(params["_method"])
    ensures r.Success? && !("_method" in params && params["_method"] != "") ==> r.value == Lower(verb)
  {
    var requestVerb := Lower(verb);
    if "_method" in params && params["_method"] != "" then
      var requested := Lower(params["_method"]);
      if requestVerb == "get" && requested == "put" then Failure(())
      else if requestVerb == "get" && requested == "delete" then Failure(())
      else Success(requested)
    else
      Success(requestVerb)
  }

  /** `RestDispatcher._dispatch`: fix the verb once per state, look for a
      sub-resource controller, then hand over to the verb's handler. */
  function RestDispatch(d: Node, st: State, rem: seq<string>, lookup: Lookup, fuel: nat): (r: Outcome)
    requires |st.stack| > 0
    ensures Sound(st, r)
    ensures NoLookupStack(st) && fuel > |rem| ==> r != OutOfFuel
    ensures NoLookupStack(st) ==> FallbackBelow(r, |st.stack| - 1)
    decreases fuel, 6, 0, 0
  {
    var verb := if st.httpMethod.Some? then Success(st.httpMethod.value) else EffectiveVerb(st.verb, st.params);
    if verb.Failure? then MethodNotAllowed
    else
      var st1 := st.(httpMethod := Some(verb.value));
      var sub := CheckForSubControllers(d, st1, rem, lookup, fuel);
      if sub.Some? then sub.value
      else if verb.value == "get" then HandleGet(d, st1, rem, lookup, fuel)
      else if verb.value == "put" || verb.value == "post" then HandlePutOrPost(d, verb.value, st1, rem, lookup, fuel)
      else if verb.value == "delete" then HandleDelete(d, st1, rem, lookup, fuel)
      else HandleCustomMethod(d, verb.value, st1, rem, lookup, fuel)
  }

  /** The index of the first segment naming a nested controller of `c`, or `|rem|`. */
  function FirstController(c: Attr, rem: seq<string>): (i: nat)
    ensures i <= |rem|
    ensures i < |rem| ==> IsController(c, rem[i])
    ensures forall j :: 0 <= j < i ==> !IsController(c, rem[j])
  {
    if |rem| == 0 then 0
    else if IsController(c, rem[0]) then 0
    else 1 + FirstController(c, rem[1..])
  }

  /** `_check_for_sub_controllers`: with `get_one` (else `get`) taking `*args`, the
      first segment naming a nested controller splits the remainder; without it,
      only the segment just past the fixed arguments may. The prefix becomes
      routing arguments. `None` means dispatch carries on at this controller. */
  function CheckForSubControllers(d: Node, st: State, rem: seq<string>, lookup: Lookup, fuel: nat): (r: Option<Outcome>)
    requires |st.stack| > 0
    ensures r.Some? ==> Sound(st, r.value)
    ensures NoLookupStack(st) && fuel > |rem| && r.Some? ==> r.value != OutOfFuel
    ensures NoLookupStack(st) && r.Some? ==> FallbackBelow(r.value, |st.stack|)
    decreases fuel, 4, 0, 0
  {
    var cur := Current(st);
    var find := if HasAttr(cur, "get_one") then "get_one" else "get";
    if !HasAttr(cur, find) then None
    else match AttrsOf(cur)[find]
      case Sub(_) => Some(NotInspectable)
      case Method(sig) =>
        if sig.varArgs then
          var i := FirstController(cur, rem);
          if i == |rem| then None
          else
            Some(DispatchController(d, rem[i], AttrsOf(cur)[rem[i]], AddRoutingArgs(st, rem[i], rem[..i], sig.names, true),
                                    rem[i + 1..], lookup, fuel))
        else if |sig.names| < |rem| && IsController(cur, rem[|sig.names|]) then
          var item := rem[|sig.names|];
          Some(DispatchController(d, item, AttrsOf(cur)[item], AddRoutingArgs(st, item, rem, sig.names, false),
                                  rem[|sig.names| + 1..], lookup, fuel))
        else None
  }

  /** `_handle_delete_edit_or_new`: a trailing `new`, `edit` or `delete` selects
      `new`, `edit` or `get_delete`, which receives the rest of the remainder. */
  function DeleteEditOrNew(st: State, rem: seq<string>): (r: Option<State>)
    requires |st.stack| > 0 && |rem| > 0
    ensures r.Some? ==> Keeps(st, r.value) && WellBound(r.value)
    ensures r.Some? ==> rem[|rem| - 1] in {"new", "edit", "delete"}
    ensures r.Some? ==> r.value.stack == st.stack && r.value.remainder == Some(rem[..|rem| - 1])
                        && r.value.action.value.name in {"new", "edit", "get_delete"}
                        && (r.value.action.value.name == "get_delete" <==> rem[|rem| - 1] == "delete")
    ensures r.Some? ==> r.value.action.value.name == (if rem[|rem| - 1] == "delete" then "get_delete" else rem[|rem| - 1])
  {
    var last := rem[|rem| - 1];
    if last != "new" && last != "edit" && last != "delete" then None
    else
      var name := if last == "delete" then "get_delete" else last;
      var cur := Current(st);
      if IsExposed(cur, name) && Matches(SigOf(cur, name), st.params, rem[..|rem| - 1]) then
        Some(AddMethod(st, ActionOf(cur, name), rem[..|rem| - 1]))
      else None
  }

  /** `_handle_custom_get`: a trailing segment that is one of the dispatcher's
      `_custom_actions` selects `get_<action>`, else `<action>`. */
  function CustomGet(d: Node, st: State, rem: seq<string>): (r: Option<State>)
    requires |st.stack| > 0 && |rem| > 0
    ensures r.Some? ==> Keeps(st, r.value) && WellBound(r.value)
    ensures r.Some? ==> rem[|rem| - 1] in d.customActions
    ensures r.Some? ==> r.value.stack == st.stack && r.value.remainder == Some(rem[..|rem| - 1])
                        && r.value.action.value.name in {"get_" + rem[|rem| - 1], rem[|rem| - 1]}
    ensures r.Some? && IsExposed(Current(st), "get_" + rem[|rem| - 1]) ==> r.value.action.value.name == "get_" + rem[|rem| - 1]
  {
    var last := rem[|rem| - 1];
    if last !in d.customActions then None
    else
      var cur := Current(st);
      // some candidate is found exactly when `last` or `get_<last>` is exposed
      var m := FindFirstExposed(cur, ["get_" + last, last]);
      if m.Some? && Matches(SigOf(cur, m.value), st.params, rem[..|rem| - 1]) then
        Some(AddMethod(st, ActionOf(cur, m.value), rem[..|rem| - 1]))
      else None
  }

  /** `_handle_get` */
  function HandleGet(d: Node, st: State, rem: seq<string>, lookup: Lookup, fuel: nat): (r: Outcome)
    requires |st.stack| > 0
    ensures Sound(st, r)
    ensures NoLookupStack(st) && fuel > |rem| ==> r != OutOfFuel
    ensures NoLookupStack(st) ==> FallbackBelow(r, |st.stack| - 1)
    decreases fuel, 5, 0, 0
  {
    var cur := Current(st);
    if |rem| == 0 then
      var m := FindFirstExposed(cur, ["get_all", "get"]);
      if m.Some? then
        Resolved(AddMethod(st, ActionOf(cur, m.value), []))
      else if IsExposed(cur, "get_one") && Matches(SigOf(cur, "get_one"), st.params, []) then
        Resolved(AddMethod(st, ActionOf(cur, "get_one"), []))
      else
        Fallback(d, st, rem, lookup, fuel)
    else
      var special := DeleteEditOrNew(st, rem);
      if special.Some? then Resolved(special.value)
      else
        var custom := CustomGet(d, st, rem);
        if custom.Some? then Resolved(custom.value)
        else if IsExposed(cur, rem[0]) then
          Resolved(AddMethod(st, ActionOf(cur, rem[0]), rem[1..]))
        else if IsController(cur, rem[0]) then
          DispatchController(d, rem[0], AttrsOf(cur)[rem[0]], st, rem[1..], lookup, fuel)
        else if IsExposed(cur, "get_one") || IsExposed(cur, "get") then
          var name := if IsExposed(cur, "get_one") then "get_one" else "get";
          if Matches(SigOf(cur, name), st.params, rem) then
            Resolved(AddMethod(st, ActionOf(cur, name), rem))
          else
            Fallback(d, st, rem, lookup, fuel)
        else
          Fallback(d, st, rem, lookup, fuel)
  }

  /** `_handle_put_or_post`: an exposed head is bound without a signature check,
      a nested controller is descended into, else the method named after the verb. */
  function HandlePutOrPost(d: Node, verb: string, st: State, rem: seq<string>, lookup: Lookup, fuel: nat): (r: Outcome)
    requires |st.stack| > 0
    ensures Sound(st, r)
    ensures NoLookupStack(st) && fuel > |rem| ==> r != OutOfFuel
    ensures NoLookupStack(st) ==> FallbackBelow(r, |st.stack| - 1)
    decreases fuel, 5, 0, 0
  {
    var cur := Current(st);
    if |rem| > 0 && IsExposed(cur, rem[0]) then
      Resolved(AddMethod(st, ActionOf(cur, rem[0]), rem[1..]))
    else if |rem| > 0 && IsController(cur, rem[0]) then
      DispatchController(d, rem[0], AttrsOf(cur)[rem[0]], st, rem[1..], lookup, fuel)
    else if IsExposed(cur, verb) && Matches(SigOf(cur, verb), st.params, rem) then
      Resolved(AddMethod(st, ActionOf(cur, verb), rem))
    else
      Fallback(d, st, rem, lookup, fuel)
  }

  /** `_handle_delete` */
  function HandleDelete(d: Node, st: State, rem: seq<string>, lookup: Lookup, fuel: nat): (r: Outcome)
    requires |st.stack| > 0
    ensures Sound(st, r)
    ensures NoLookupStack(st) && fuel > |rem| ==> r != OutOfFuel
    ensures NoLookupStack(st) ==> FallbackBelow(r, |st.stack| - 1)
    decreases fuel, 5, 0, 0
  {
    HandleNamedVerb(d, ["post_delete", "delete"], st, rem, lookup, fuel)
  }

  /** `_handle_custom_method` for any other verb. */
  function HandleCustomMethod(d: Node, verb: string, st: State, rem: seq<string>, lookup: Lookup, fuel: nat): (r: Outcome)
    requires |st.stack| > 0
    ensures Sound(st, r)
    ensures NoLookupStack(st) && fuel > |rem| ==> r != OutOfFuel
    ensures NoLookupStack(st) ==> FallbackBelow(r, |st.stack| - 1)
    decreases fuel, 5, 0, 0
  {
    HandleNamedVerb(d, ["post_" + verb, verb], st, rem, lookup, fuel)
  }

  /** The shared body of `_handle_delete` and `_handle_custom_method`: only the
      first exposed candidate is tried; an exposed head is not allowed under this
      verb; a nested controller named by the head is retried with the rest,
      pushed under the rest's joined path. */
  function HandleNamedVerb(d: Node, candidates: seq<string>, st: State, rem: seq<string>, lookup: Lookup, fuel: nat)
    : (r: Outcome)
    requires |st.stack| > 0
    ensures Sound(st, r)
    ensures NoLookupStack(st) && fuel > |rem| ==> r != OutOfFuel
    ensures NoLookupStack(st) ==> FallbackBelow(r, |st.stack| - 1)
    decreases fuel, 4, 0, 0
  {
    var cur := Current(st);
    var m := FindFirstExposed(cur, candidates);
    if m.Some? && Matches(SigOf(cur, m.value), st.params, rem) then
      Resolved(AddMethod(st, ActionOf(cur, m.value), rem))
    else if |rem| > 0 && IsExposed(cur, rem[0]) then
      MethodNotAllowed
    else if |rem| > 0 && HasAttr(cur, rem[0]) then
      DispatchController(d, Join(rem[1..], '/'), AttrsOf(cur)[rem[0]], st, rem[1..], lookup, fuel)
    else
      Fallback(d, st, rem, lookup, fuel)
  }

  /** Dispatch from a fresh state: the root's `_dispatch` with the whole path. */
  function Resolve(st: State, lookup: Lookup, fuel: nat): (r: Outcome)
    requires |st.stack| > 0
    ensures Sound(st, r)
    ensures NoLookupStack(st) && fuel > |st.path| ==> r != OutOfFuel
    ensures NoLookupStack(st) ==> FallbackBelow(r, |st.stack| - 1)
  {
    Dispatch(st.dispatcher, st, st.path, lookup, fuel)
  }
}

=== FILE: dispatch_state.dfy ===
/** The per-request dispatch state: the normalised path, the request
    parameters, the stack of controllers visited, the bound action and its
    remainder, and the routing arguments collected on the way. */
module DispatchState {
  import opened Wrappers
  import opened Text
  import opened Signature
  import opened Controllers

  /** Where the path comes from: the request's `path_info`, an explicit string,
      or an already split list of segments. */
  datatype PathSource = RequestPath(pathInfo: string) | GivenString(path: string) | GivenList(segments: seq<string>)

  /** A routing argument: one segment for a fixed name, or the leftover tail for a mount point. */
  datatype RouteValue = Segment(value: string) | Segments(values: seq<string>)

  /** One entry of `controller_path`. */
  datatype Frame = Frame(location: string, controller: Attr)

  /** The dispatch state. `path` is the field the dispatchers call `url_path`;
      the current controller is the top of `stack`; `httpMethod` is absent until a
      REST dispatcher computes it; `lastTried` is the class of the last controller
      a `_lookup` handed over to. */
  datatype State = State(
    verb: string,
    path: seq<string>,
    extension: Option<string>,
    params: map<string, string>,
    stack: seq<Frame>,
    routing: map<string, RouteValue>,
    action: Option<Action>,
    remainder: Option<seq<string>>,
    dispatcher: Node,
    httpMethod: Option<string>,
    lastTried: Option<string>)

  /** `state.controller` */
  function Current(st: State): Attr
    requires |st.stack| > 0
  {
    st.stack[|st.stack| - 1].controller
  }

  /** The path before normalisation: `path_info` loses its first character and is
      split on '/', a given string is split on '/', a given list is taken as is. */
  function RawSegments(src: PathSource): (segs: seq<string>)
    ensures src.GivenList? ==> segs == src.segments
    ensures src.GivenString? ==> Join(segs, '/') == src.path
    ensures src.RequestPath? ==> Join(segs, '/') == (if |src.pathInfo| > 0 then src.pathInfo[1..] else "")
    ensures !src.GivenList? ==> |segs| >= 1 && forall i :: 0 <= i < |segs| ==> '/' !in segs[i]
  {
    match src
    case RequestPath(p) =>
      var s := if |p| > 0 then p[1..] else "";
      JoinSplit(s, '/');
      Split(s, '/')
    case GivenString(s) =>
      JoinSplit(s, '/');
      Split(s, '/')
    case GivenList(l) => l
  }

  /** Drops exactly one leading empty segment, if there is one. */
  function StripLeading(p: seq<string>): (r: seq<string>)
    ensures |p| > 0 && p[0] == "" ==> r == p[1..]
    ensures !(|p| > 0 && p[0] == "") ==> r == p
  {
    if |p| > 0 && p[0] == "" then p[1..] else p
  }

  /** Drops every trailing empty segment. */
  function StripTrailing(p: seq<string>): (r: seq<string>)
    ensures |r| <= |p| && r == p[..|r|]
    ensures forall i :: |r| <= i < |p| ==> p[i] == ""
    ensures |r| == 0 || r[|r| - 1] != ""
  {
    if |p| > 0 && p[|p| - 1] == "" then StripTrailing(p[..|p| - 1]) else p
  }

  /** Moves a `.ext` suffix of the last segment into the extension: the text after
      the last '.', with the segment keeping the text before it. */
  function StripExtension(p: seq<string>): (r: (seq<string>, Option<string>))
    ensures r.1.Some? <==> |p| > 0 && '.' in p[|p| - 1]
    ensures r.1.None? ==> r.0 == p
    ensures r.1.Some? ==>
              && |r.0| == |p|
              && r.0[..|p| - 1] == p[..|p| - 1]
              && r.0[|p| - 1] + ['.'] + r.1.value == p[|p| - 1]
              && '.' !in r.1.value
  {
    if |p| > 0 && '.' in p[|p| - 1] then
      var last := p[|p| - 1];
      var parts := Split(last, '.');
      SplitOfContaining(last, '.');
      JoinSplit(last, '.');
      JoinSnoc(parts, '.');
      (p[..|p| - 1] + [Join(parts[..|parts| - 1], '.')], Some(parts[|parts| - 1]))
    else
      (p, None)
  }

  /** The last segment with its extension put back. */
  function Restored(path: seq<string>, extension: Option<string>): seq<string>
  {
    if extension.None? || |path| == 0 then path
    else path[..|path| - 1] + [path[|path| - 1] + ['.'] + extension.value]
  }

  /** Putting the extension back undoes `StripExtension`. */
  lemma RestoredStripExtension(p: seq<string>)
    ensures |StripExtension(p).0| == |p|
    ensures Restored(StripExtension(p).0, StripExtension(p).1) == p
  {
    var r := StripExtension(p);
    if r.1.Some? {
      assert r.0[..|p| - 1] + [r.0[|p| - 1] + ['.'] + r.1.value] == p;
    }
  }

  /** Normalises raw segments: with the extension put back, the path is the raw
      segments less at most one leading empty segment and every trailing one;
      the extension is split off exactly when the last such segment holds a
      '.', and holds none itself. */
  function Normalize(raw: seq<string>): (r: (seq<string>, Option<string>))
    ensures var lead := if |raw| > 0 && raw[0] == "" then 1 else 0;
            && lead + |r.0| <= |raw|
            && Restored(r.0, r.1) == raw[lead..lead + |r.0|]
            && (forall i :: lead + |r.0| <= i < |raw| ==> raw[i] == "")
            && (r.1.Some? <==> |r.0| > 0 && '.' in raw[lead + |r.0| - 1])
    ensures |r.0| > 0 && r.1.None? ==> r.0[|r.0| - 1] != ""
    ensures r.1.Some? ==> '.' !in r.1.value
  {
    var lead := if |raw| > 0 && raw[0] == "" then 1 else 0;
    var led := StripLeading(raw);
    assert led == raw[lead..];
    var trimmed := StripTrailing(led);
    assert trimmed == raw[lead..lead + |trimmed|];
    RestoredStripExtension(trimmed);
    StripExtension(trimmed)
  }

  /** The normalised path and extension a new state starts from. */
  function NormalizePath(src: PathSource): (r: (seq<string>, Option<string>))
    ensures var raw := RawSegments(src);
            var lead := if |raw| > 0 && raw[0] == "" then 1 else 0;
            && lead + |r.0| <= |raw|
            && Restored(r.0, r.1) == raw[lead..lead + |r.0|]
            && (forall i :: lead + |r.0| <= i < |raw| ==> raw[i] == "")
            && (r.1.Some? <==> |r.0| > 0 && '.' in raw[lead + |r.0| - 1])
    ensures |r.0| > 0 && r.1.None? ==> r.0[|r.0| - 1] != ""
    ensures r.1.Some? ==> '.' !in r.1.value
  {
    Normalize(RawSegments(src))
  }

  /** Request params with the ignored names removed. */
  function DropIgnored(params: map<string, string>, ignore: seq<string>): (r: map<string, string>)
    ensures forall k :: k in r <==> k in params && k !in ignore
    ensures forall k :: k in r ==> r[k] == params[k]
  {
    map k | k in params && k !in ignore :: params[k]
  }

  /** `DispatchState(request, dispatcher, params, path_info, ignore_parameters)`:
      `verb` is the request method, `params` the given or request params. */
  function NewState(verb: string, src: PathSource, params: map<string, string>, ignore: seq<string>, root: Node): (st: State)
    ensures |st.stack| == 1 && st.stack[0] == Frame("/", Sub(root)) && Current(st) == Sub(root)
    ensures st.routing == map[] && st.action.None? && st.remainder.None?
    ensures st.dispatcher == root && st.httpMethod.None? && st.lastTried.None?
    ensures forall k :: k in st.params <==> k in params && k !in ignore
    ensures forall k :: k in st.params ==> st.params[k] == params[k]
    ensures (st.path, st.extension) == NormalizePath(src) && st.verb == verb
  {
    var (path, extension) := NormalizePath(src);
    State(verb, path, extension, DropIgnored(params, ignore), [Frame("/", Sub(root))], map[], None, None, root, None, None)
  }

  /** `add_controller`: push the controller, which becomes current. */
  function AddController(st: State, location: string, c: Attr): (st': State)
    ensures |st'.stack| == |st.stack| + 1 && st'.stack[..|st.stack|] == st.stack
    ensures Current(st') == c && st'.stack[|st.stack|].location == location
    ensures st' == st.(stack := st'.stack)
  {
    st.(stack := st.stack + [Frame(location, c)])
  }

  /** `add_method`: record the action and the remainder it will receive. */
  function AddMethod(st: State, a: Action, remainder: seq<string>): (st': State)
    ensures st'.action == Some(a) && st'.remainder == Some(remainder)
    ensures st' == st.(action := st'.action, remainder := st'.remainder)
  {
    st.(action := Some(a), remainder := Some(remainder))
  }

  /** `routing` with `fixed[i] := remainder[i]` assigned for `i < n`, in order. */
  function AssignFixed(routing: map<string, RouteValue>, fixed: seq<string>, remainder: seq<string>, n: nat)
    : (r: map<string, RouteValue>)
    requires n <= |fixed| && n <= |remainder|
    ensures forall k :: k in r <==> k in routing || k in fixed[..n]
    ensures forall k :: k in routing && k !in fixed[..n] ==> r[k] == routing[k]
    ensures Distinct(fixed) ==> forall i :: 0 <= i < n ==> r[fixed[i]] == Segment(remainder[i])
  {
    if n == 0 then routing
    else
      assert fixed[..n] == fixed[..n - 1] + [fixed[n - 1]];
      AssignFixed(routing, fixed, remainder, n - 1)[fixed[n - 1] := Segment(remainder[n - 1])]
  }

  /** Where `add_routing_args` slices the tail it stores, as written: the loop
      variable of `for i, arg in enumerate(fixed_args)` after the loop, which is
      the index of the break, or the LAST index when the loop runs to the end. */
  function WrittenTailStart(fixed: seq<string>, remainder: seq<string>): (i: nat)
    ensures i <= |remainder|
  {
    if |fixed| == 0 then 0
    else if |remainder| < |fixed| then |remainder|
    else |fixed| - 1
  }

  /** Where the tail evidently should start: after the items the fixed names consumed. */
  function IntendedTailStart(fixed: seq<string>, remainder: seq<string>): (i: nat)
    ensures i <= |remainder|
  {
    Min(|fixed|, |remainder|)
  }

  /** `add_routing_args` exactly as written: the fixed names the remainder reaches
      are bound to their items, and with `*args` the tail from the loop's
      stopping index, when not empty, is stored under the mount name. */
  function AddRoutingArgsAsWritten(st: State, mount: string, remainder: seq<string>, fixed: seq<string>, varArgs: bool)
    : (st': State)
    ensures st' == st.(routing := st'.routing)
    ensures var n := Min(|fixed|, |remainder|);
            var t := WrittenTailStart(fixed, remainder);
            && (Distinct(fixed) ==>
                  forall i :: 0 <= i < n && (fixed[i] != mount || !varArgs || t == |remainder|)
                    ==> fixed[i] in st'.routing && st'.routing[fixed[i]] == Segment(remainder[i]))
            && (varArgs && t < |remainder| ==> mount in st'.routing && st'.routing[mount] == Segments(remainder[t..]))
            && (forall k :: k in st'.routing <==> k in st.routing || k in fixed[..n] || (varArgs && t < |remainder| && k == mount))
            && (forall k :: k in st.routing && k !in fixed[..n] && k != mount ==> k in st'.routing && st'.routing[k] == st.routing[k])
  {
    var n := Min(|fixed|, |remainder|);
    var routing := AssignFixed(st.routing, fixed, remainder, n);
    var tail := remainder[WrittenTailStart(fixed, remainder)..];
    st.(routing := if varArgs && |tail| > 0 then routing[mount := Segments(tail)] else routing)
  }

  /** `add_routing_args` with the tail taken after the consumed items; this is the
      version the REST dispatcher uses. */
  function AddRoutingArgs(st: State, mount: string, remainder: seq<string>, fixed: seq<string>, varArgs: bool)
    : (st': State)
    ensures st' == st.(routing := st'.routing)
    ensures var n := Min(|fixed|, |remainder|);
            && (Distinct(fixed) ==>
                  forall i :: 0 <= i < n && (fixed[i] != mount || !varArgs || n == |remainder|)
                    ==> fixed[i] in st'.routing && st'.routing[fixed[i]] == Segment(remainder[i]))
            && (varArgs && n < |remainder| ==> mount in st'.routing && st'.routing[mount] == Segments(remainder[n..]))
            && (forall k :: k in st'.routing <==> k in st.routing || k in fixed[..n] || (varArgs && n < |remainder| && k == mount))
            && (forall k :: k in st.routing && k !in fixed[..n] && k != mount ==> k in st'.routing && st'.routing[k] == st.routing[k])
  {
    var n := Min(|fixed|, |remainder|);
    var routing := AssignFixed(st.routing, fixed, remainder, n);
    var tail := remainder[IntendedTailStart(fixed, remainder)..];
    st.(routing := if varArgs && |tail| > 0 then routing[mount := Segments(tail)] else routing)
  }

  /** The segments a controller mounted at `mount` was reached through, read back
      from the routing arguments: the value of each fixed name, then the stored tail. */
  function Reassemble(routing: map<string, RouteValue>, fixed: seq<string>, mount: string): seq<string>
  {
    FixedValues(routing, fixed) + (if mount in routing && routing[mount].Segments? then routing[mount].values else [])
  }

  function FixedValues(routing: map<string, RouteValue>, fixed: seq<string>): (vs: seq<string>)
    ensures |vs| == |fixed|
    ensures forall i :: 0 <= i < |fixed| && fixed[i] in routing && routing[fixed[i]].Segment? ==> vs[i] == routing[fixed[i]].value
  {
    if |fixed| == 0 then []
    else
      [if fixed[0] in routing && routing[fixed[0]].Segment? then routing[fixed[0]].value else ""] + FixedValues(routing, fixed[1..])
  }

  /** Fixed names bound to the leading segments read back as those segments. */
  lemma FixedValuesBound(routing: map<string, RouteValue>, fixed: seq<string>, remainder: seq<string>)
    requires |fixed| <= |remainder|
    requires forall i :: 0 <= i < |fixed| ==> fixed[i] in routing && routing[fixed[i]] == Segment(remainder[i])
    ensures FixedValues(routing, fixed) == remainder[..|fixed|]
  {
  }

  /** Routing arguments that bind each fixed name to its segment, and the mount
      name to the rest when there is a rest, read back as the segments. */
  lemma ReassembleBound(routing: map<string, RouteValue>, fixed: seq<string>, mount: string, remainder: seq<string>)
    requires |fixed| <= |remainder|
    requires forall i :: 0 <= i < |fixed| ==> fixed[i] in routing && routing[fixed[i]] == Segment(remainder[i])
    requires |fixed| < |remainder| ==> mount in routing && routing[mount] == Segments(remainder[|fixed|..])
    requires |fixed| == |remainder| ==> mount !in routing
    ensures Reassemble(routing, fixed, mount) == remainder
  {
    var n := |fixed|;
    FixedValuesBound(routing, fixed, remainder);
    if n < |remainder| {
      assert remainder[..n] + remainder[n..] == remainder;
    } else {
      assert remainder[..n] == remainder;
    }
  }

  /** The routing arguments `AddRoutingArgs` records give back the segments they
      were taken from: the fixed values followed by the stored tail. */
  lemma RoutingArgsRoundTrip(st: State, mount: string, remainder: seq<string>, fixed: seq<string>)
    requires Distinct(fixed) && mount !in fixed && mount !in st.routing && |fixed| <= |remainder|
    ensures Reassemble(AddRoutingArgs(st, mount, remainder, fixed, true).routing, fixed, mount) == remainder
  {
    var routing := AddRoutingArgs(st, mount, remainder, fixed, true).routing;
    var n := |fixed|;
    assert Min(|fixed|, |remainder|) == n;
    assert forall i :: 0 <= i < n ==> fixed[i] != mount;
    if n == |remainder| {
      assert mount !in fixed[..n];
    }
    ReassembleBound(routing, fixed, mount, remainder);
  }

  /** Routing arguments read back as the remainder they were recorded from,
      however many fixed names the remainder covers. */
  lemma RoutingArgsReadBack(st: State, mount: string, remainder: seq<string>, fixed: seq<string>)
    requires Distinct(fixed) && mount !in fixed && mount !in st.routing
    ensures var n := Min(|fixed|, |remainder|);
            Reassemble(AddRoutingArgs(st, mount, remainder, fixed, true).routing, fixed[..n], mount) == remainder
  {
    var n := Min(|fixed|, |remainder|);
    if |fixed| <= |remainder| {
      assert fixed[..n] == fixed;
      RoutingArgsRoundTrip(st, mount, remainder, fixed);
    } else {
      var routing := AddRoutingArgs(st, mount, remainder, fixed, true).routing;
      assert n == |remainder|;
      assert forall i :: 0 <= i < n ==> fixed[..n][i] == fixed[i];
      FixedValuesBound(routing, fixed[..n], remainder);
      assert mount !in fixed[..n];
      assert remainder[..n] == remainder;
    }
  }

  /** Whatever reads back as the segments before `rem[i]`, followed by that
      segment and the ones after it, is `rem`. */
  lemma SplitAround(rem: seq<string>, i: nat, before: seq<string>)
    requires i < |rem| && before == rem[..i]
    ensures before + [rem[i]] + rem[i + 1..] == rem
  {
    assert rem == rem[..i] + rem[i..];
    assert rem[i..] == [rem[i]] + rem[i + 1..];
  }

  /** A remainder split at a mount segment `rem[i]`: the routing arguments
      recorded from the segments before it, the segment and the segments after it
      read back as the whole remainder. */
  lemma SplitReadsBack(st: State, rem: seq<string>, i: nat, fixed: seq<string>)
    requires Distinct(fixed) && i < |rem| && rem[i] !in fixed && rem[i] !in st.routing
    ensures Reassemble(AddRoutingArgs(st, rem[i], rem[..i], fixed, true).routing, fixed[..Min(|fixed|, i)], rem[i])
            + [rem[i]] + rem[i + 1..] == rem
  {
    var before := rem[..i];
    assert |before| == i;
    RoutingArgsReadBack(st, rem[i], before, fixed);
    SplitAround(rem, i, Reassemble(AddRoutingArgs(st, rem[i], before, fixed, true).routing, fixed[..Min(|fixed|, i)], rem[i]));
  }

  /** Without `*args`: the fixed arguments recorded from the whole remainder,
      the segment just past them and the rest read back as the remainder. */
  lemma FixedSplitReadsBack(st: State, rem: seq<string>, fixed: seq<string>)
    requires Distinct(fixed) && |fixed| < |rem|
    ensures FixedValues(AddRoutingArgs(st, rem[|fixed|], rem, fixed, false).routing, fixed) + [rem[|fixed|]] + rem[|fixed| + 1..] == rem
  {
    var n := |fixed|;
    var routing := AddRoutingArgs(st, rem[n], rem, fixed, false).routing;
    assert Min(n, |rem|) == n;
    FixedValuesBound(routing, fixed, rem);
    SplitAround(rem, n, FixedValues(routing, fixed));
  }

  /** The code as written and the corrected version record the same state except
      for the tail under the mount name, and they agree altogether unless `*args`
      is set and the remainder covers every fixed name. */
  lemma AsWrittenDiffersOnlyAtMount(st: State, mount: string, remainder: seq<string>, fixed: seq<string>, varArgs: bool)
    ensures var a := AddRoutingArgsAsWritten(st, mount, remainder, fixed, varArgs);
            var c := AddRoutingArgs(st, mount, remainder, fixed, varArgs);
            && a == c.(routing := a.routing)
            && a.routing - {mount} == c.routing - {mount}
            && (!(varArgs && 0 < |fixed| <= |remainder|) ==> a == c)
  {
    var n := Min(|fixed|, |remainder|);
    var routing := AssignFixed(st.routing, fixed, remainder, n);
    var a := AddRoutingArgsAsWritten(st, mount, remainder, fixed, varArgs);
    var c := AddRoutingArgs(st, mount, remainder, fixed, varArgs);
    assert a.routing - {mount} == routing - {mount};
    assert c.routing - {mount} == routing - {mount};
  }

  /** As written, whenever `*args` is set and the remainder covers every fixed
      name, the stored tail starts with the item already bound to the last fixed
      name, so the routing arguments read back with that item twice. */
  lemma AsWrittenTailRepeatsLastFixed(st: State, mount: string, remainder: seq<string>, fixed: seq<string>)
    requires 0 < |fixed| <= |remainder| && Distinct(fixed) && mount !in fixed
    ensures var routing := AddRoutingArgsAsWritten(st, mount, remainder, fixed, true).routing;
            var last := |fixed| - 1;
            && routing[fixed[last]] == Segment(remainder[last])
            && mount in routing && routing[mount] == Segments(remainder[last..])
            && Reassemble(routing, fixed, mount) == remainder[..|fixed|] + remainder[last..]
            && |Reassemble(routing, fixed, mount)| == |remainder| + 1
  {
    var routing := AddRoutingArgsAsWritten(st, mount, remainder, fixed, true).routing;
    var n := |fixed|;
    assert Min(|fixed|, |remainder|) == n && WrittenTailStart(fixed, remainder) == n - 1;
    assert forall i :: 0 <= i < n ==> fixed[i] != mount;
    FixedValuesBound(routing, fixed, remainder);
  }

  /** As written, a `get_one(self, id, *args)` reached through `5/x` before the
      nested controller `sub` stores the tail `["5", "x"]` under `sub`, repeating
      the segment already bound to `id`, so the segments no longer read back. */
  lemma AsWrittenTailRepeatsFixedSegment(st: State)
    requires "sub" !in st.routing
    ensures var routing := AddRoutingArgsAsWritten(st, "sub", ["5", "x"], ["id"], true).routing;
            && routing["id"] == Segment("5")
            && routing["sub"] == Segments(["5", "x"])
            && Reassemble(routing, ["id"], "sub") == ["5", "5", "x"]
  {
    AsWrittenTailRepeatsLastFixed(st, "sub", ["5", "x"], ["id"]);
    assert ["5", "x"][..1] + ["5", "x"][0..] == ["5", "5", "x"];
  }

  /** The intended version stores only the unconsumed tail. */
  lemma IntendedTailSkipsFixedSegment(st: State)
    requires "sub" !in st.routing
    ensures var routing := AddRoutingArgs(st, "sub", ["5", "x"], ["id"], true).routing;
            && routing["id"] == Segment("5")
            && routing["sub"] == Segments(["x"])
            && Reassemble(routing, ["id"], "sub") == ["5", "x"]
  {
    RoutingArgsRoundTrip(st, "sub", ["5", "x"], ["id"]);
    assert ["5", "x"][1..] == ["x"];
  }
}

=== FILE: object_rules.dfy ===
/** The rules of object dispatch, each stated against the functions of
    `Dispatchers`: what is bound where, the order of the checks, and how the
    fallback search walks back up the controller stack. */
module ObjectRules {
  import opened Wrappers
  import opened Signature
  import opened Controllers
  import opened DispatchState
  import opened Dispatchers

  /** The current controller's security check runs before anything is matched. */
  lemma SecurityCheckedFirst(d: Node, st: State, rem: seq<string>, lookup: Lookup, fuel: nat)
    requires |st.stack| > 0 && Rejects(Current(st))
    ensures ObjectDispatch(d, st, rem, lookup, fuel) == SecurityRejected
  {
  }

  /** A rejecting child stops dispatch: its own `_dispatch` is never entered, and a
      plain child traversed by an object dispatcher is checked on arrival. */
  lemma RejectingChildStops(d: Node, location: string, c: Attr, st: State, rem: seq<string>, lookup: Lookup, fuel: nat)
    requires |st.stack| > 0 && c.Sub? && c.node.rejects
    requires SelfDispatching(c) || (d.kind == ObjectDispatcher && fuel > 0)
    ensures DispatchController(d, location, c, st, rem, lookup, fuel) == SecurityRejected
  {
    if !SelfDispatching(c) {
      var pushed := AddController(st, location, c);
      assert Rejects(Current(pushed));
      assert Dispatch(d, pushed, rem, lookup, fuel - 1) == ObjectDispatch(d, pushed, rem, lookup, fuel - 1);
    }
  }

  /** With no path left, an exposed `index` whose signature matches is bound with nothing. */
  lemma IndexOnEmptyRemainder(d: Node, st: State, lookup: Lookup, fuel: nat)
    requires |st.stack| > 0 && !Rejects(Current(st))
    requires IsExposed(Current(st), "index") && Matches(SigOf(Current(st), "index"), st.params, [])
    ensures ObjectDispatch(d, st, [], lookup, fuel) == Resolved(AddMethod(st, ActionOf(Current(st), "index"), []))
  {
  }

  /** A head naming an exposed method whose signature matches the tail binds it with the tail. */
  lemma ExposedHeadBinds(d: Node, st: State, rem: seq<string>, lookup: Lookup, fuel: nat)
    requires |st.stack| > 0 && !Rejects(Current(st)) && |rem| > 0
    requires IsExposed(Current(st), rem[0]) && Matches(SigOf(Current(st), rem[0]), st.params, rem[1..])
    ensures ObjectDispatch(d, st, rem, lookup, fuel) == Resolved(AddMethod(st, ActionOf(Current(st), rem[0]), rem[1..]))
  {
  }

  /** Otherwise a head naming any attribute, even a method whose signature did not
      match, is pushed and dispatch continues with the tail. */
  lemma AttributeHeadDescends(d: Node, st: State, rem: seq<string>, lookup: Lookup, fuel: nat)
    requires |st.stack| > 0 && !Rejects(Current(st)) && |rem| > 0 && HasAttr(Current(st), rem[0])
    requires !(IsExposed(Current(st), rem[0]) && Matches(SigOf(Current(st), rem[0]), st.params, rem[1..]))
    ensures ObjectDispatch(d, st, rem, lookup, fuel)
            == DispatchController(d, rem[0], AttrsOf(Current(st))[rem[0]], st, rem[1..], lookup, fuel)
  {
  }

  /** A child with its own `_dispatch` becomes the dispatcher and takes over, on the
      state with the child pushed. */
  lemma SelfDispatchingChildTakesOver(d: Node, location: string, c: Attr, st: State, rem: seq<string>, lookup: Lookup,
                                      fuel: nat)
    requires |st.stack| > 0 && SelfDispatching(c) && !c.node.rejects && fuel > 0
    ensures DispatchController(d, location, c, st, rem, lookup, fuel)
            == Dispatch(c.node, AddController(st, location, c).(dispatcher := c.node), rem, lookup, fuel - 1)
  {
  }

  /** Any other child is traversed by the same dispatcher. */
  lemma PlainChildContinues(d: Node, location: string, c: Attr, st: State, rem: seq<string>, lookup: Lookup, fuel: nat)
    requires |st.stack| > 0 && !SelfDispatching(c) && fuel > 0
    ensures DispatchController(d, location, c, st, rem, lookup, fuel)
            == Dispatch(d, AddController(st, location, c), rem, lookup, fuel - 1)
  {
  }

  /** Before the search, the unconsumed remainder is cut off the end of the path. */
  lemma FallbackTrimsPath(d: Node, st: State, rem: seq<string>, lookup: Lookup, fuel: nat)
    requires |st.stack| > 0 && |rem| > 0 && |rem| <= |st.path| && st.path[|st.path| - |rem|..] == rem
    ensures var trimmed := st.(path := st.path[..|st.path| - |rem|]);
            && trimmed.path + rem == st.path
            && Fallback(d, st, rem, lookup, fuel) == FallbackLevels(d, trimmed, rem, |st.stack|, lookup, fuel)
  {
    assert st.path[..|st.path| - |rem|] + st.path[|st.path| - |rem|..] == st.path;
  }

  /** At a fallback level, an exposed `_default` wins over `_lookup` and `index`
      and is bound with the remainder as it stands. */
  lemma DefaultWins(d: Node, st: State, rem: seq<string>, levels: nat, lookup: Lookup, fuel: nat)
    requires 0 < levels <= |st.stack| && IsExposed(Current(st), "_default")
    ensures FallbackLevels(d, st, rem, levels, lookup, fuel)
            == Resolved(AddMethod(st, ActionOf(Current(st), "_default"), rem).(dispatcher := d))
  {
  }

  /** A `_lookup` result is dispatched into only when its class differs from the
      last one handed over to; otherwise the level goes on to the `index` check
      with the looked-up controller and remainder. */
  lemma LookupRetriedOnlyForNewClass(d: Node, st: State, rem: seq<string>, levels: nat, lookup: Lookup, fuel: nat)
    requires 0 < levels <= |st.stack| && !IsExposed(Current(st), "_default") && IsExposed(Current(st), "_lookup")
    ensures var (next, rem') := lookup(Current(st).node, rem);
            FallbackLevels(d, st, rem, levels, lookup, fuel)
            == if st.lastTried != Some(next.cls) then
                 DispatchController(d, "_lookup", Sub(next), st.(lastTried := Some(next.cls)), rem', lookup, fuel)
               else
                 IndexOrBacktrack(d, st, Sub(next), rem', levels, lookup, fuel)
  {
  }

  /** The fallback `index` is bound exactly when its signature matches the
      current remainder; otherwise the top entry is popped and the last path
      segment returns to the front of the remainder, so path and remainder
      together still spell the same request. */
  lemma FallbackIndexOrBacktrack(d: Node, st: State, c: Attr, rem: seq<string>, levels: nat, lookup: Lookup, fuel: nat)
    requires 0 < levels <= |st.stack|
    ensures IsExposed(c, "index") && Matches(SigOf(c, "index"), st.params, rem) ==>
              IndexOrBacktrack(d, st, c, rem, levels, lookup, fuel)
              == Resolved(AddMethod(st, ActionOf(c, "index"), rem).(dispatcher := d))
    ensures !(IsExposed(c, "index") && Matches(SigOf(c, "index"), st.params, rem)) && |st.path| > 0 ==>
              var st' := st.(stack := st.stack[..|st.stack| - 1], path := st.path[..|st.path| - 1]);
              var rem' := [st.path[|st.path| - 1]] + rem;
              && st'.path + rem' == st.path + rem
              && IndexOrBacktrack(d, st, c, rem, levels, lookup, fuel) == FallbackLevels(d, st', rem', levels - 1, lookup, fuel)
  {
    if |st.path| > 0 {
      assert st.path[..|st.path| - 1] + [st.path[|st.path| - 1]] == st.path;
    }
  }

  /** No controller on the stack exposes `_default`, `_lookup` or `index`. */
  predicate NoFallbackHandlers(st: State)
  {
    forall i :: 0 <= i < |st.stack| ==>
      && !IsExposed(st.stack[i].controller, "_default")
      && !IsExposed(st.stack[i].controller, "_lookup")
      && !IsExposed(st.stack[i].controller, "index")
  }

  /** One pass over a stack with nothing to fall back on ends in NotFound. */
  lemma {:induction false} FallbackLevelsNotFound(d: Node, st: State, rem: seq<string>, lookup: Lookup, fuel: nat)
    requires NoFallbackHandlers(st)
    ensures FallbackLevels(d, st, rem, |st.stack|, lookup, fuel) == NotFound
    decreases |st.stack|
  {
    if |st.stack| > 0 {
      var popped := st.(stack := st.stack[..|st.stack| - 1]);
      assert NoFallbackHandlers(popped) by {
        forall i | 0 <= i < |popped.stack| ensures popped.stack[i] == st.stack[i] { }
      }
      assert !IsExposed(Current(st), "_default") && !IsExposed(Current(st), "_lookup") && !IsExposed(Current(st), "index");
      if |st.path| > 0 {
        FallbackLevelsNotFound(d, popped.(path := st.path[..|st.path| - 1]), [st.path[|st.path| - 1]] + rem, lookup, fuel);
      } else {
        FallbackLevelsNotFound(d, popped, rem, lookup, fuel);
      }
    }
  }

  lemma FallbackNotFound(d: Node, st: State, rem: seq<string>, lookup: Lookup, fuel: nat)
    requires |st.stack| > 0 && NoFallbackHandlers(st)
    ensures Fallback(d, st, rem, lookup, fuel) == NotFound
  {
    var trimmed := if |rem| > 0 then st.(path := DropLast(st.path, |rem|)) else st;
    assert NoFallbackHandlers(trimmed);
    FallbackLevelsNotFound(d, trimmed, rem, lookup, fuel);
  }

  /** No controller on the stack exposes `_lookup`. */
  predicate NoLookupHandlers(st: State)
  {
    forall i :: 0 <= i < |st.stack| ==> !IsExposed(st.stack[i].controller, "_lookup")
  }

  /** Backing up loses no segment: whatever a fallback level binds, its path
      followed by its remainder spells the path and remainder it started from. */
  lemma {:induction false} FallbackLevelsKeepsSegments(d: Node, st: State, rem: seq<string>, levels: nat, lookup: Lookup,
                                                       fuel: nat)
    requires levels <= |st.stack| && NoLookupHandlers(st)
    ensures var r := FallbackLevels(d, st, rem, levels, lookup, fuel);
            r.Resolved? ==> r.st.path + r.st.remainder.value == st.path + rem
    decreases levels
  {
    if levels > 0 {
      var cur := Current(st);
      assert !IsExposed(cur, "_lookup");
      if !IsExposed(cur, "_default") && !(IsExposed(cur, "index") && Matches(SigOf(cur, "index"), st.params, rem)) {
        var popped := st.(stack := st.stack[..|st.stack| - 1]);
        assert NoLookupHandlers(popped) by {
          forall i | 0 <= i < |popped.stack| ensures popped.stack[i] == st.stack[i] { }
        }
        if |st.path| > 0 {
          var st' := popped.(path := st.path[..|st.path| - 1]);
          var rem' := [st.path[|st.path| - 1]] + rem;
          FallbackLevelsKeepsSegments(d, st', rem', levels - 1, lookup, fuel);
          assert st'.path + rem' == st.path + rem by {
            assert st.path[..|st.path| - 1] + [st.path[|st.path| - 1]] == st.path;
          }
        } else {
          FallbackLevelsKeepsSegments(d, popped, rem, levels - 1, lookup, fuel);
        }
      }
    }
  }

  /** The whole fallback search, started with a remainder that ends the path,
      binds an action whose path and remainder together spell the original path. */
  lemma FallbackKeepsSegments(d: Node, st: State, rem: seq<string>, lookup: Lookup, fuel: nat)
    requires |st.stack| > 0 && NoLookupHandlers(st)
    requires |rem| <= |st.path| && st.path[|st.path| - |rem|..] == rem
    ensures var r := Fallback(d, st, rem, lookup, fuel);
            r.Resolved? ==> r.st.path + r.st.remainder.value == st.path
  {
    var trimmed := if |rem| > 0 then st.(path := DropLast(st.path, |rem|)) else st;
    assert trimmed.path + rem == st.path by {
      assert st.path[..|st.path| - |rem|] + st.path[|st.path| - |rem|..] == st.path;
    }
    assert NoLookupHandlers(trimmed);
    FallbackLevelsKeepsSegments(d, trimmed, rem, |trimmed.stack|, lookup, fuel);
  }

  /** `segs` leads from `c` through nested controllers that neither reject nor
      dispatch on their own. */
  predicate PlainPath(c: Attr, segs: seq<string>)
    decreases |segs|
  {
    && !Rejects(c)
    && (|segs| > 0 ==>
          && IsController(c, segs[0])
          && !SelfDispatching(AttrsOf(c)[segs[0]])
          && PlainPath(AttrsOf(c)[segs[0]], segs[1..]))
  }

  /** The controller such a path ends at. */
  function EndOf(c: Attr, segs: seq<string>): Attr
    requires PlainPath(c, segs)
    decreases |segs|
  {
    if |segs| == 0 then c else EndOf(AttrsOf(c)[segs[0]], segs[1..])
  }

  /** Segment-by-segment traversal: object dispatch follows a plain path of
      controllers, one stack entry per segment, and binds the exposed method
      named after it when its signature matches what is left. */
  lemma {:induction false} TraversalBindsMethod(d: Node, st: State, segs: seq<string>, name: string, tail: seq<string>,
                                                lookup: Lookup, fuel: nat)
    requires d.kind == ObjectDispatcher && |st.stack| > 0 && fuel >= |segs|
    requires PlainPath(Current(st), segs)
    requires IsExposed(EndOf(Current(st), segs), name)
    requires Matches(SigOf(EndOf(Current(st), segs), name), st.params, tail)
    ensures var r := ObjectDispatch(d, st, segs + [name] + tail, lookup, fuel);
            && r.Resolved?
            && r.st.action == Some(ActionOf(EndOf(Current(st), segs), name))
            && r.st.remainder == Some(tail)
            && |r.st.stack| == |st.stack| + |segs|
            && r.st.stack[..|st.stack|] == st.stack
    decreases |segs|
  {
    var rem := segs + [name] + tail;
    if |segs| == 0 {
      assert rem[0] == name && rem[1..] == tail;
    } else {
      var cur := Current(st);
      var child := AttrsOf(cur)[segs[0]];
      assert rem[0] == segs[0] && rem[1..] == segs[1..] + [name] + tail;
      var st' := AddController(st, segs[0], child);
      assert Current(st') == child;
      TraversalBindsMethod(d, st', segs[1..], name, tail, lookup, fuel - 1);
      assert ObjectDispatch(d, st, rem, lookup, fuel) == DispatchController(d, segs[0], child, st, rem[1..], lookup, fuel);
      assert DispatchController(d, segs[0], child, st, rem[1..], lookup, fuel) == Dispatch(d, st', rem[1..], lookup, fuel - 1);
      var r := ObjectDispatch(d, st', rem[1..], lookup, fuel - 1);
      assert r.st.stack[..|st.stack|] == r.st.stack[..|st'.stack|][..|st.stack|];
    }
  }
}

=== FILE: odict.dfy ===
/** `odict`: a dictionary that remembers the order of its assignments. The
    ordering is a plain list of keys, appended to on every assignment, so a
    re-assigned key appears in it again. */
module Odict {
  import opened Wrappers

  /** The exceptions odict operations raise. */
  datatype OdictError = IndexError | KeyError

  datatype Odict<K, V> = Odict(ordering: seq<K>, entries: map<K, V>)

  /** The dictionary `odict()` builds. */
  function Empty<K, V>(): (d: Odict<K, V>)
    ensures d.ordering == [] && d.entries == map[]
  {
    Odict([], map[])
  }

  /** Every listed key has an entry and every entry is listed. */
  predicate Consistent<K, V>(d: Odict<K, V>)
  {
    (forall i :: 0 <= i < |d.ordering| ==> d.ordering[i] in d.entries)
    && (forall k :: k in d.entries ==> k in d.ordering)
  }

  /** `d[k] = v` */
  function Set<K, V>(d: Odict<K, V>, k: K, v: V): (d': Odict<K, V>)
    ensures Keys(d') == Keys(d) + [k]
    ensures k in d'.entries && d'.entries[k] == v
    ensures forall j :: j in d.entries ==> j in d'.entries
    ensures forall j :: j in d'.entries && j != k ==> j in d.entries
    ensures forall j :: j != k && j in d.entries ==> d'.entries[j] == d.entries[j]
  {
    Odict(d.ordering + [k], d.entries[k := v])
  }

  /** `d[k]` */
  function Get<K, V>(d: Odict<K, V>, k: K): (r: Result<V, OdictError>)
    ensures r.Success? <==> k in d.entries
    ensures r.Success? ==> r.value == d.entries[k]
    ensures r.Failure? ==> r.error == KeyError
  {
    if k in d.entries then Success(d.entries[k]) else Failure(KeyError)
  }

  /** `keys()`: the listing itself, one listing per assignment, repeats included.
      Its order is stated by `Set` and `KeysFollowAssignments`. */
  function Keys<K, V>(d: Odict<K, V>): seq<K>
  {
    d.ordering
  }

  /** `clear()` */
  function Clear<K, V>(d: Odict<K, V>): (d': Odict<K, V>)
    ensures Keys(d') == [] && d'.entries == map[]
  {
    Empty()
  }

  /** `getitem(n)`: the value of the `n`-th key, with Python's negative indices. */
  function GetItem<K, V>(d: Odict<K, V>, n: int): (r: Result<V, OdictError>)
    ensures !(-|d.ordering| <= n < |d.ordering|) ==> r == Failure(IndexError)
    ensures 0 <= n < |d.ordering| ==> r == Get(d, d.ordering[n])
    ensures -|d.ordering| <= n < 0 ==> r == Get(d, d.ordering[|d.ordering| + n])
  {
    if n < -|d.ordering| || n >= |d.ordering| then Failure(IndexError)
    else Get(d, d.ordering[if n < 0 then |d.ordering| + n else n])
  }

  /** `items()`: the pairs of `iteritems()` in key order, or the `KeyError` the
      generator raises at the first listed key without an entry. */
  function Items<K, V>(d: Odict<K, V>): (r: Result<seq<(K, V)>, OdictError>)
    ensures r.Success? <==> forall i :: 0 <= i < |d.ordering| ==> d.ordering[i] in d.entries
    ensures r.Success? ==> |r.value| == |d.ordering|
    ensures r.Success? ==> forall i :: 0 <= i < |d.ordering| ==> r.value[i] == (d.ordering[i], d.entries[d.ordering[i]])
    ensures r.Failure? ==> r.error == KeyError
  {
    ItemsOf(d.ordering, d.entries)
  }

  function ItemsOf<K, V>(keys: seq<K>, entries: map<K, V>): (r: Result<seq<(K, V)>, OdictError>)
    ensures r.Success? <==> forall i :: 0 <= i < |keys| ==> keys[i] in entries
    ensures r.Success? ==> |r.value| == |keys|
    ensures r.Success? ==> forall i :: 0 <= i < |keys| ==> r.value[i] == (keys[i], entries[keys[i]])
    ensures r.Failure? ==> r.error == KeyError
  {
    if |keys| == 0 then Success([])
    else if keys[0] !in entries then Failure(KeyError)
    else
      var rest := ItemsOf(keys[1..], entries);
      if rest.Failure? then
        assert exists i :: 1 <= i < |keys| && keys[i] !in entries by {
          var j :| 0 <= j < |keys[1..]| && keys[1..][j] !in entries;
          assert keys[j + 1] !in entries;
        }
        rest
      else
        assert forall i :: 1 <= i < |keys| ==> keys[i] in entries by {
          forall i | 1 <= i < |keys| ensures keys[i] in entries {
            assert keys[i] == keys[1..][i - 1];
          }
        }
        Success([(keys[0], entries[keys[0]])] + rest.value)
  }

  /** `itervalues()`: the values in key order, or the `KeyError` it raises. */
  function Values<K, V>(d: Odict<K, V>): (r: Result<seq<V>, OdictError>)
    ensures r.Success? <==> forall i :: 0 <= i < |d.ordering| ==> d.ordering[i] in d.entries
    ensures r.Success? ==> |r.value| == |d.ordering|
    ensures r.Success? ==> forall i :: 0 <= i < |d.ordering| ==> r.value[i] == d.entries[d.ordering[i]]
    ensures r.Failure? ==> r.error == KeyError
  {
    var items := Items(d);
    if items.Failure? then Failure(items.error)
    else Success(seq(|items.value|, i requires 0 <= i < |items.value| => items.value[i].1))
  }

  /** `list.index(x)`: the position of the first occurrence of `x`. */
  function IndexOf<K(==)>(s: seq<K>, x: K): (i: nat)
    requires x in s
    ensures i < |s| && s[i] == x && x !in s[..i]
  {
    if s[0] == x then 0
    else
      assert s[1..][0..] == s[1..];
      var j := IndexOf(s[1..], x);
      assert s[..j + 1] == [s[0]] + s[1..][..j];
      j + 1
  }

  /** No occurrence of `x` comes before the first. */
  lemma {:induction false} IndexOfFirst<K>(s: seq<K>, x: K, j: nat)
    requires j < |s| && s[j] == x
    ensures IndexOf(s, x) <= j
    decreases |s|
  {
    if s[0] != x {
      IndexOfFirst(s[1..], x, j - 1);
    }
  }

  /** Dropping the first occurrence from the tail of a list that does not start
      with `x` drops the first occurrence from the list. */
  lemma RemoveFirstStep<K>(s: seq<K>, x: K, rest: seq<K>)
    requires |s| > 0 && s[0] != x && x in s
    requires rest == s[1..][..IndexOf(s[1..], x)] + s[1..][IndexOf(s[1..], x) + 1..]
    ensures [s[0]] + rest == s[..IndexOf(s, x)] + s[IndexOf(s, x) + 1..]
  {
    var j := IndexOf(s[1..], x);
    assert IndexOf(s, x) == j + 1;
    SliceAfterHead(s, j);
    Assoc([s[0]], s[1..][..j], s[1..][j + 1..]);
  }

  /** Slicing a list behind its head, in the tail's positions. */
  lemma SliceAfterHead<K>(s: seq<K>, j: nat)
    requires j + 1 < |s|
    ensures s[..j + 1] == [s[0]] + s[1..][..j]
    ensures s[j + 2..] == s[1..][j + 1..]
  {
  }

  /** Concatenation is associative. */
  lemma Assoc<K>(a: seq<K>, b: seq<K>, c: seq<K>)
    ensures a + (b + c) == (a + b) + c
  {
  }

  /** `list.remove(x)`: drops the first occurrence of `x`, keeping the order of
      the rest. */
  function RemoveFirst<K(==)>(s: seq<K>, x: K): (r: seq<K>)
    ensures x !in s ==> r == s
    ensures x in s ==> r == s[..IndexOf(s, x)] + s[IndexOf(s, x) + 1..]
  {
    if |s| == 0 then s
    else if s[0] == x then
      assert s[..0] + s[1..] == s[1..];
      s[1..]
    else
      assert s == [s[0]] + s[1..];
      var rest := RemoveFirst(s[1..], x);
      assert x in s ==> [s[0]] + rest == s[..IndexOf(s, x)] + s[IndexOf(s, x) + 1..] by {
        if x in s {
          RemoveFirstStep(s, x, rest);
        }
      }
      [s[0]] + rest
  }

  /** Every occurrence of `x` dropped, the others kept in order and number. */
  function RemoveAll<K(==)>(s: seq<K>, x: K): (r: seq<K>)
    ensures x !in r
    ensures x !in s ==> r == s
    ensures forall y :: y in s && y != x ==> y in r
    ensures forall y :: y in r ==> y in s
    ensures forall y :: y in s && y != x ==> multiset(r)[y] == multiset(s)[y]
    ensures |r| <= |s|
  {
    if |s| == 0 then s
    else
      assert s == [s[0]] + s[1..];
      var rest := RemoveAll(s[1..], x);
      assert multiset(s) == multiset{s[0]} + multiset(s[1..]);
      if s[0] == x then rest
      else
        assert multiset([s[0]] + rest) == multiset{s[0]} + multiset(rest);
        [s[0]] + rest
  }

  /** `RemoveAll` is the order-keeping filter: removing from a list extended by
      one item removes from the list, then keeps the item unless it is `x`. */
  lemma {:induction false} RemoveAllSnoc<K>(s: seq<K>, y: K, x: K)
    ensures RemoveAll(s + [y], x) == RemoveAll(s, x) + (if y == x then [] else [y])
    decreases |s|
  {
    if |s| == 0 {
      assert [] + [y] == [y];
      assert [y][1..] == [];
    } else {
      assert (s + [y])[0] == s[0];
      assert (s + [y])[1..] == s[1..] + [y];
      RemoveAllSnoc(s[1..], y, x);
    }
  }

  /** `pop()` exactly as written: the last listed key loses its entry (`KeyError`
      when it has none) and ONE occurrence of it, the first, leaves the ordering;
      an empty ordering raises `IndexError`. */
  function PopAsWritten<K, V>(d: Odict<K, V>): (r: Result<Odict<K, V>, OdictError>)
    ensures r.Success? <==> |d.ordering| > 0 && d.ordering[|d.ordering| - 1] in d.entries
    ensures |d.ordering| == 0 ==> r == Failure(IndexError)
    ensures |d.ordering| > 0 && d.ordering[|d.ordering| - 1] !in d.entries ==> r == Failure(KeyError)
    ensures r.Success? ==>
              var last := d.ordering[|d.ordering| - 1];
              && r.value.entries == d.entries - {last}
              && Keys(r.value) == RemoveFirst(Keys(d), last)
  {
    if |d.ordering| == 0 then Failure(IndexError)
    else
      var last := d.ordering[|d.ordering| - 1];
      if last !in d.entries then Failure(KeyError)
      else Success(Odict(RemoveFirst(d.ordering, last), d.entries - {last}))
  }

  /** `pop()` as evidently intended: the last listed key leaves the dictionary,
      both its entry and every mention of it in the ordering. */
  function Pop<K, V>(d: Odict<K, V>): (r: Result<Odict<K, V>, OdictError>)
    ensures r.Success? <==> |d.ordering| > 0 && d.ordering[|d.ordering| - 1] in d.entries
    ensures |d.ordering| == 0 ==> r == Failure(IndexError)
    ensures |d.ordering| > 0 && d.ordering[|d.ordering| - 1] !in d.entries ==> r == Failure(KeyError)
    ensures r.Success? ==>
              var last := d.ordering[|d.ordering| - 1];
              && r.value.entries == d.entries - {last}
              && Keys(r.value) == RemoveAll(Keys(d), last)
  {
    if |d.ordering| == 0 then Failure(IndexError)
    else
      var last := d.ordering[|d.ordering| - 1];
      if last !in d.entries then Failure(KeyError)
      else Success(Odict(RemoveAll(d.ordering, last), d.entries - {last}))
  }

  /** A run of assignments `d[k] = v`, in order. */
  function AssignAll<K, V>(d: Odict<K, V>, kvs: seq<(K, V)>): Odict<K, V>
    decreases |kvs|
  {
    if |kvs| == 0 then d
    else AssignAll(Set(d, kvs[0].0, kvs[0].1), kvs[1..])
  }

  /** The keys of a run of assignments, in order. */
  function KeysOf<K, V>(kvs: seq<(K, V)>): (ks: seq<K>)
    ensures |ks| == |kvs| && forall i :: 0 <= i < |kvs| ==> ks[i] == kvs[i].0
  {
    if |kvs| == 0 then [] else [kvs[0].0] + KeysOf(kvs[1..])
  }

  /** After `d[k] = v`, `d[k]` is `v`. */
  lemma SetThenGet<K, V>(d: Odict<K, V>, k: K, v: V)
    ensures Get(Set(d, k, v), k) == Success(v)
  {
  }

  /** The ordering after a run of assignments: one listing per assignment. */
  lemma {:induction false} AssignAllOrdering<K, V>(d: Odict<K, V>, kvs: seq<(K, V)>)
    ensures AssignAll(d, kvs).ordering == d.ordering + KeysOf(kvs)
    decreases |kvs|
  {
    if |kvs| != 0 {
      var k := kvs[0].0;
      var d1 := Set(d, k, kvs[0].1);
      AssignAllOrdering(d1, kvs[1..]);
      assert d1.ordering == d.ordering + [k];
      assert KeysOf(kvs) == [k] + KeysOf(kvs[1..]);
      Assoc(d.ordering, [k], KeysOf(kvs[1..]));
    }
  }

  /** `keys()` lists the assigned keys in assignment order, repeats included. */
  lemma {:induction false} KeysFollowAssignments<K, V>(d: Odict<K, V>, kvs: seq<(K, V)>)
    ensures Keys(AssignAll(d, kvs)) == Keys(d) + KeysOf(kvs)
  {
    AssignAllOrdering(d, kvs);
  }

  /** Assignments and `clear()` keep the ordering and the entries in step. */
  lemma SetKeepsConsistent<K, V>(d: Odict<K, V>, k: K, v: V)
    requires Consistent(d)
    ensures Consistent(Set(d, k, v))
  {
    var d' := Set(d, k, v);
    forall i | 0 <= i < |d'.ordering| ensures d'.ordering[i] in d'.entries {
      if i < |d.ordering| {
        assert d'.ordering[i] == d.ordering[i];
      }
    }
  }

  lemma ClearEmpties<K, V>(d: Odict<K, V>)
    ensures Consistent(Clear(d)) && Items(Clear(d)) == Success([])
  {
  }

  /** On a consistent dictionary, `items()` pairs each listed key with its value,
      in `keys()` order, and `itervalues()` gives the values in that order. */
  lemma ItemsInKeyOrder<K, V>(d: Odict<K, V>)
    requires Consistent(d)
    ensures Items(d).Success? && |Items(d).value| == |Keys(d)|
    ensures forall i :: 0 <= i < |Keys(d)| ==> Items(d).value[i] == (Keys(d)[i], d.entries[Keys(d)[i]])
    ensures Values(d).Success? && |Values(d).value| == |Keys(d)|
    ensures forall i :: 0 <= i < |Keys(d)| ==> Values(d).value[i] == d.entries[Keys(d)[i]]
  {
  }

  /** `getitem(n)` on a consistent dictionary: the value of the `n`-th listed key. */
  lemma GetItemNth<K, V>(d: Odict<K, V>, n: int)
    requires Consistent(d) && 0 <= n < |Keys(d)|
    ensures GetItem(d, n) == Success(d.entries[Keys(d)[n]])
  {
  }

  /** After `pop()` the popped key can no longer be read (the `KeyError` expected
      of `d['b']` after `d['b'] = 2; d.pop()`). */
  lemma PopForgetsLastKey<K, V>(d: Odict<K, V>)
    requires Consistent(d) && |Keys(d)| > 0
    ensures PopAsWritten(d).Success?
    ensures Get(PopAsWritten(d).value, Keys(d)[|Keys(d)| - 1]) == Failure(KeyError)
  {
  }

  /** The intended `pop()` keeps the dictionary consistent. */
  lemma PopKeepsConsistent<K, V>(d: Odict<K, V>)
    requires Consistent(d) && |Keys(d)| > 0
    ensures Pop(d).Success? && Consistent(Pop(d).value)
    ensures Get(Pop(d).value, Keys(d)[|Keys(d)| - 1]) == Failure(KeyError)
  {
    var last := d.ordering[|d.ordering| - 1];
    var d' := Pop(d).value;
    forall i | 0 <= i < |d'.ordering| ensures d'.ordering[i] in d'.entries {
      var k := d'.ordering[i];
      assert k in d'.ordering;
      assert k != last && k in d.ordering;
    }
  }

  /** Removing the first listing of a key that is also listed last leaves the
      last listing in place. */
  lemma RemoveFirstKeepsLaterListing<K>(s: seq<K>, x: K)
    requires |s| > 0 && s[|s| - 1] == x && x in s[..|s| - 1]
    ensures |RemoveFirst(s, x)| > 0 && RemoveFirst(s, x)[|RemoveFirst(s, x)| - 1] == x
  {
    var j := IndexOf(s[..|s| - 1], x);
    IndexOfFirst(s, x, j);
    var i := IndexOf(s, x);
    var r := RemoveFirst(s, x);
    assert r == s[..i] + s[i + 1..];
    assert r[|r| - 1] == s[|s| - 1];
  }

  /** A listed key without an entry makes an odict inconsistent and its
      `items()` raise `KeyError`. */
  lemma ListedWithoutEntry<K, V>(d: Odict<K, V>, i: nat)
    requires i < |d.ordering| && d.ordering[i] !in d.entries
    ensures !Consistent(d) && Items(d) == Failure(KeyError)
  {
  }

  /** As written, `pop()` on any dictionary whose last key has an entry and is
      also listed earlier removes the entry but leaves a listing of the key, so
      the dictionary is not consistent and `items()` raises `KeyError`. */
  lemma PopAsWrittenBreaksRepeatedKey<K, V>(d: Odict<K, V>)
    requires |Keys(d)| > 0 && Keys(d)[|Keys(d)| - 1] in d.entries
    requires Keys(d)[|Keys(d)| - 1] in Keys(d)[..|Keys(d)| - 1]
    ensures PopAsWritten(d).Success?
    ensures Keys(d)[|Keys(d)| - 1] in Keys(PopAsWritten(d).value)
    ensures !Consistent(PopAsWritten(d).value)
    ensures Items(PopAsWritten(d).value) == Failure(KeyError)
  {
    var ks := Keys(d);
    var last := ks[|ks| - 1];
    assert PopAsWritten(d).Success? by {
      assert ks == d.ordering;
    }
    var p := PopAsWritten(d).value;
    RemoveFirstKeepsLaterListing(ks, last);
    var kp := Keys(p);
    assert kp == RemoveFirst(ks, last);
    assert kp[|kp| - 1] == last;
    ListedWithoutEntry(p, |kp| - 1);
  }

  /** When the last key is listed nowhere else, as after assignments to distinct
      keys, removing its first listing removes all of them. */
  lemma {:induction false} RemoveFirstIsRemoveAllWhenLast<K>(s: seq<K>, x: K)
    requires |s| > 0 && s[|s| - 1] == x && x !in s[..|s| - 1]
    ensures RemoveFirst(s, x) == RemoveAll(s, x)
    decreases |s|
  {
    assert s == [s[0]] + s[1..];
    if s[0] == x {
      assert |s| == 1;
    } else {
      assert s[1..][..|s[1..]| - 1] == s[..|s| - 1][1..];
      RemoveFirstIsRemoveAllWhenLast(s[1..], x);
    }
  }

  /** The pop as written and the intended pop agree unless the last key is
      listed more than once. */
  lemma PopAsWrittenAgreesWhenListedOnce<K, V>(d: Odict<K, V>)
    requires |Keys(d)| > 0 && Keys(d)[|Keys(d)| - 1] !in Keys(d)[..|Keys(d)| - 1]
    ensures PopAsWritten(d) == Pop(d)
  {
    RemoveFirstIsRemoveAllWhenLast(d.ordering, d.ordering[|d.ordering| - 1]);
  }

  /** `d['a'] = 1; d['b'] = 2; d['a'] = 3` on a fresh dictionary. */
  function Reassigned(): Odict<string, int>
  {
    AssignAll(Empty(), [("a", 1), ("b", 2), ("a", 3)])
  }

  lemma ReassignedIs()
    ensures Reassigned() == Odict(["a", "b", "a"], map["a" := 3, "b" := 2])
  {
    var kvs := [("a", 1), ("b", 2), ("a", 3)];
    var d1 := Set(Empty(), "a", 1);
    var d2 := Set(d1, "b", 2);
    var d3 := Set(d2, "a", 3);
    assert kvs[1..] == [("b", 2), ("a", 3)];
    assert AssignAll(Empty(), kvs) == AssignAll(d1, kvs[1..]);
    assert kvs[1..][1..] == [("a", 3)];
    assert AssignAll(d1, kvs[1..]) == AssignAll(d2, [("a", 3)]);
    assert [("a", 3)][1..] == [];
    assert AssignAll(d2, [("a", 3)]) == d3;
    assert d3.entries == map["a" := 3, "b" := 2];
  }

  /** As written, `pop()` after a key was assigned twice leaves that key listed
      without an entry: `keys()` still shows it and `items()` raises `KeyError`. */
  lemma PopAsWrittenLeavesDanglingKey()
    ensures Consistent(Reassigned())
    ensures PopAsWritten(Reassigned()).Success?
    ensures Keys(PopAsWritten(Reassigned()).value) == ["b", "a"]
    ensures !Consistent(PopAsWritten(Reassigned()).value)
    ensures Items(PopAsWritten(Reassigned()).value) == Failure(KeyError)
  {
    ReassignedIs();
    var d := Odict(["a", "b", "a"], map["a" := 3, "b" := 2]);
    assert Consistent(d) by {
      assert forall k :: k in d.entries ==> k == "a" || k == "b";
      assert d.ordering[0] == "a" && d.ordering[1] == "b";
    }
    assert d.ordering[2] == "a" && d.ordering[..2][0] == "a";
    PopAsWrittenBreaksRepeatedKey(d);
    assert RemoveFirst(["a", "b", "a"], "a") == ["b", "a"] by {
      assert ["a", "b", "a"][0] == "a";
      assert ["a", "b", "a"][1..] == ["b", "a"];
    }
  }

  /** The intended `pop()` on the same dictionary removes the key altogether. */
  lemma PopRemovesReassignedKey()
    ensures Pop(Reassigned()).Success?
    ensures Keys(Pop(Reassigned()).value) == ["b"]
    ensures Items(Pop(Reassigned()).value) == Success([("b", 2)])
  {
    ReassignedIs();
    assert RemoveAll(["a", "b", "a"], "a") == ["b"] by {
      assert ["a", "b", "a"][1..] == ["b", "a"];
      assert ["b", "a"][1..] == ["a"];
      assert ["a"][1..] == [];
    }
    var p := Pop(Reassigned()).value;
    assert p.ordering == ["b"];
    assert "b" in p.entries && p.entries["b"] == 2;
    var items := Items(p);
    assert items.Success? && |items.value| == 1 && items.value[0] == ("b", 2);
    assert items.value == [("b", 2)];
  }
}

=== FILE: rest_rules.dfy ===
/** The rules of REST dispatch: the effective verb, sub-resource detection
    before verb handling, and the handler-name conventions of each verb. */
module RestRules {
  import opened Wrappers
  import opened Text
  import opened Signature
  import opened Controllers
  import opened DispatchState
  import opened Dispatchers

  /** The effective verb is always lower case. */
  lemma EffectiveVerbLowerCase(verb: string, params: map<string, string>)
    requires EffectiveVerb(verb, params).Success?
    ensures Lower(EffectiveVerb(verb, params).value) == EffectiveVerb(verb, params).value
  {
    if "_method" in params && params["_method"] != "" {
      LowerIdempotent(params["_method"]);
    } else {
      LowerIdempotent(verb);
    }
  }

  /** A GET request can be turned into any other verb by `_method`, but never into
      PUT or DELETE: whatever the dispatcher, state and remainder, the first REST
      dispatch refuses such a request. */
  lemma GetCannotPoseAsPutOrDelete(d: Node, st: State, rem: seq<string>, lookup: Lookup, fuel: nat)
    requires |st.stack| > 0 && st.httpMethod.None? && Lower(st.verb) == "get"
    ensures EffectiveVerb(st.verb, st.params).Success? ==> EffectiveVerb(st.verb, st.params).value !in {"put", "delete"}
    ensures "_method" in st.params && Lower(st.params["_method"]) in {"put", "delete"} ==>
              RestDispatch(d, st, rem, lookup, fuel) == MethodNotAllowed
  {
    VerbComputedOnce(d, st, rem, lookup, fuel);
  }

  /** The verb is computed once per state: the first REST dispatch stores it and
      then behaves exactly as a dispatch of the state that already carries it; a
      refused override ends the request. */
  lemma VerbComputedOnce(d: Node, st: State, rem: seq<string>, lookup: Lookup, fuel: nat)
    requires |st.stack| > 0 && st.httpMethod.None?
    ensures var v := EffectiveVerb(st.verb, st.params);
            && (v.Success? ==> RestDispatch(d, st, rem, lookup, fuel) == RestDispatch(d, st.(httpMethod := Some(v.value)), rem, lookup, fuel))
            && (v.Failure? ==> RestDispatch(d, st, rem, lookup, fuel) == MethodNotAllowed)
  {
  }

  /** Once stored, the verb alone picks the handler, after the sub-controller check. */
  lemma StoredVerbPicksHandler(d: Node, st: State, rem: seq<string>, lookup: Lookup, fuel: nat)
    requires |st.stack| > 0 && st.httpMethod.Some?
    ensures var m := st.httpMethod.value;
            var sub := CheckForSubControllers(d, st, rem, lookup, fuel);
            RestDispatch(d, st, rem, lookup, fuel)
            == if sub.Some? then sub.value
               else if m == "get" then HandleGet(d, st, rem, lookup, fuel)
               else if m == "put" || m == "post" then HandlePutOrPost(d, m, st, rem, lookup, fuel)
               else if m == "delete" then HandleDelete(d, st, rem, lookup, fuel)
               else HandleCustomMethod(d, m, st, rem, lookup, fuel)
  {
    assert st.(httpMethod := Some(st.httpMethod.value)) == st;
  }

  /** The method whose signature decides sub-resource detection: `get_one` if the
      controller has it, else `get`. */
  function Inspected(c: Attr): string
  {
    if HasAttr(c, "get_one") then "get_one" else "get"
  }

  /** With `*args`, the first segment naming a nested controller splits the
      remainder: the segments before it become routing arguments and the
      controller receives the segments after it. */
  lemma VarArgsSplitsAtFirstController(d: Node, st: State, rem: seq<string>, lookup: Lookup, fuel: nat, sig: Sig, i: nat)
    requires |st.stack| > 0
    requires HasAttr(Current(st), Inspected(Current(st))) && AttrsOf(Current(st))[Inspected(Current(st))] == Method(sig)
    requires sig.varArgs && i < |rem| && IsController(Current(st), rem[i])
    requires forall j :: 0 <= j < i ==> !IsController(Current(st), rem[j])
    ensures CheckForSubControllers(d, st, rem, lookup, fuel)
            == Some(DispatchController(d, rem[i], AttrsOf(Current(st))[rem[i]], AddRoutingArgs(st, rem[i], rem[..i], sig.names, true),
                                       rem[i + 1..], lookup, fuel))
  {
    var cur := Current(st);
    var find := if HasAttr(cur, "get_one") then "get_one" else "get";
    assert find == Inspected(cur);
    assert FirstController(cur, rem) == i;
  }

  /** Without `*args`, only the segment just past the fixed arguments can name the
      nested controller, which receives the segments after it. */
  lemma FixedArgsSplitAtArity(d: Node, st: State, rem: seq<string>, lookup: Lookup, fuel: nat, sig: Sig)
    requires |st.stack| > 0
    requires HasAttr(Current(st), Inspected(Current(st))) && AttrsOf(Current(st))[Inspected(Current(st))] == Method(sig)
    requires !sig.varArgs
    ensures |sig.names| < |rem| && IsController(Current(st), rem[|sig.names|]) ==>
              CheckForSubControllers(d, st, rem, lookup, fuel)
              == Some(DispatchController(d, rem[|sig.names|], AttrsOf(Current(st))[rem[|sig.names|]],
                                         AddRoutingArgs(st, rem[|sig.names|], rem, sig.names, false),
                                         rem[|sig.names| + 1..], lookup, fuel))
    ensures !(|sig.names| < |rem| && IsController(Current(st), rem[|sig.names|])) ==>
              CheckForSubControllers(d, st, rem, lookup, fuel) == None
  {
  }

  /** A nested controller named by a segment is found before any verb handler runs. */
  lemma SubControllersBeforeHandlers(d: Node, st: State, rem: seq<string>, lookup: Lookup, fuel: nat)
    requires |st.stack| > 0 && st.httpMethod.Some? && CheckForSubControllers(d, st, rem, lookup, fuel).Some?
    ensures RestDispatch(d, st, rem, lookup, fuel) == CheckForSubControllers(d, st, rem, lookup, fuel).value
  {
    assert st.(httpMethod := Some(st.httpMethod.value)) == st;
  }

  /** GET with nothing left: `get_all`, else `get`, bound without a signature check;
      else a matching `get_one`; else the fallback search. */
  lemma GetWithEmptyRemainder(d: Node, st: State, lookup: Lookup, fuel: nat)
    requires |st.stack| > 0
    ensures var cur := Current(st);
            var r := HandleGet(d, st, [], lookup, fuel);
            && (IsExposed(cur, "get_all") ==> r == Resolved(AddMethod(st, ActionOf(cur, "get_all"), [])))
            && (!IsExposed(cur, "get_all") && IsExposed(cur, "get") ==> r == Resolved(AddMethod(st, ActionOf(cur, "get"), [])))
            && ((!IsExposed(cur, "get_all") && !IsExposed(cur, "get") && IsExposed(cur, "get_one")
                 && Matches(SigOf(cur, "get_one"), st.params, [])) ==> r == Resolved(AddMethod(st, ActionOf(cur, "get_one"), [])))
            && ((!IsExposed(cur, "get_all") && !IsExposed(cur, "get")
                 && !(IsExposed(cur, "get_one") && Matches(SigOf(cur, "get_one"), st.params, []))) ==> r == Fallback(d, st, [], lookup, fuel))
  {
    var cur := Current(st);
    if !IsExposed(cur, "get_all") && IsExposed(cur, "get") {
      var names := ["get_all", "get"];
      assert names[1..] == ["get"];
      assert FindFirstExposed(cur, ["get"]) == Some("get");
      assert FindFirstExposed(cur, names) == FindFirstExposed(cur, names[1..]);
    }
  }

  /** The method a trailing `new`, `edit` or `delete` selects. */
  function SuffixMethod(last: string): string
  {
    if last == "delete" then "get_delete" else last
  }

  /** GET ending in `new`, `edit` or `delete` binds `new`, `edit` or `get_delete`
      with that segment dropped, when the signature matches. */
  lemma GetTrailingSuffix(d: Node, st: State, rem: seq<string>, lookup: Lookup, fuel: nat)
    requires |st.stack| > 0 && |rem| > 0 && rem[|rem| - 1] in {"new", "edit", "delete"}
    requires IsExposed(Current(st), SuffixMethod(rem[|rem| - 1]))
    requires Matches(SigOf(Current(st), SuffixMethod(rem[|rem| - 1])), st.params, rem[..|rem| - 1])
    ensures HandleGet(d, st, rem, lookup, fuel)
            == Resolved(AddMethod(st, ActionOf(Current(st), SuffixMethod(rem[|rem| - 1])), rem[..|rem| - 1]))
  {
  }

  /** A trailing custom action `a` selects `get_a` before `a`. */
  lemma CustomGetPrefersGetPrefix(d: Node, st: State, rem: seq<string>)
    requires |st.stack| > 0 && |rem| > 0 && rem[|rem| - 1] in d.customActions
    requires IsExposed(Current(st), "get_" + rem[|rem| - 1])
    ensures var name := "get_" + rem[|rem| - 1];
            CustomGet(d, st, rem)
            == if Matches(SigOf(Current(st), name), st.params, rem[..|rem| - 1])
               then Some(AddMethod(st, ActionOf(Current(st), name), rem[..|rem| - 1]))
               else None
  {
  }

  /** GET whose head is neither an exposed method nor a nested controller binds
      `get_one` (preferred over `get`) with the whole remainder when it matches. */
  lemma GetOnePreferredOverGet(d: Node, st: State, rem: seq<string>, lookup: Lookup, fuel: nat)
    requires |st.stack| > 0 && |rem| > 0
    requires DeleteEditOrNew(st, rem).None? && CustomGet(d, st, rem).None?
    requires !IsExposed(Current(st), rem[0]) && !IsController(Current(st), rem[0])
    requires IsExposed(Current(st), "get_one")
    ensures HandleGet(d, st, rem, lookup, fuel)
            == if Matches(SigOf(Current(st), "get_one"), st.params, rem)
               then Resolved(AddMethod(st, ActionOf(Current(st), "get_one"), rem))
               else Fallback(d, st, rem, lookup, fuel)
  {
  }

  /** PUT and POST bind an exposed head with the tail and no signature check. */
  lemma PutPostExposedHeadUnchecked(d: Node, verb: string, st: State, rem: seq<string>, lookup: Lookup, fuel: nat)
    requires |st.stack| > 0 && |rem| > 0 && IsExposed(Current(st), rem[0])
    ensures HandlePutOrPost(d, verb, st, rem, lookup, fuel) == Resolved(AddMethod(st, ActionOf(Current(st), rem[0]), rem[1..]))
  {
  }

  /** Otherwise PUT and POST descend into a nested controller, else bind the
      method named after the verb when it matches, else fall back. */
  lemma PutPostOtherwise(d: Node, verb: string, st: State, rem: seq<string>, lookup: Lookup, fuel: nat)
    requires |st.stack| > 0 && !(|rem| > 0 && IsExposed(Current(st), rem[0]))
    ensures var cur := Current(st);
            HandlePutOrPost(d, verb, st, rem, lookup, fuel)
            == if |rem| > 0 && IsController(cur, rem[0]) then
                 DispatchController(d, rem[0], AttrsOf(cur)[rem[0]], st, rem[1..], lookup, fuel)
               else if IsExposed(cur, verb) && Matches(SigOf(cur, verb), st.params, rem) then
                 Resolved(AddMethod(st, ActionOf(cur, verb), rem))
               else
                 Fallback(d, st, rem, lookup, fuel)
  {
  }

  /** DELETE tries only the first exposed of `post_delete` and `delete`: when
      `post_delete` is exposed but does not match, a matching `delete` is never
      bound, and an exposed head is then refused. */
  lemma DeleteTriesFirstExposedOnly(d: Node, st: State, rem: seq<string>, lookup: Lookup, fuel: nat)
    requires |st.stack| > 0
    requires IsExposed(Current(st), "post_delete") && !Matches(SigOf(Current(st), "post_delete"), st.params, rem)
    requires |rem| > 0 && IsExposed(Current(st), rem[0])
    ensures HandleDelete(d, st, rem, lookup, fuel) == MethodNotAllowed
  {
    assert FindFirstExposed(Current(st), ["post_delete", "delete"]) == Some("post_delete");
  }

  /** DELETE and any other verb `v` bind the first exposed of `post_delete`/`delete`
      (resp. `post_v`/`v`) when it matches; failing that, an exposed head is not
      allowed, and a head naming any other attribute is entered with the tail. */
  lemma NamedVerbRules(d: Node, candidates: seq<string>, st: State, rem: seq<string>, lookup: Lookup, fuel: nat)
    requires |st.stack| > 0
    ensures var cur := Current(st);
            var m := FindFirstExposed(cur, candidates);
            var r := HandleNamedVerb(d, candidates, st, rem, lookup, fuel);
            && (m.Some? && Matches(SigOf(cur, m.value), st.params, rem) ==> r == Resolved(AddMethod(st, ActionOf(cur, m.value), rem)))
            && ((!(m.Some? && Matches(SigOf(cur, m.value), st.params, rem)) && |rem| > 0 && IsExposed(cur, rem[0]))
                ==> r == MethodNotAllowed)
            && ((!(m.Some? && Matches(SigOf(cur, m.value), st.params, rem)) && |rem| > 0 && IsController(cur, rem[0]))
                ==> r == DispatchController(d, Join(rem[1..], '/'), AttrsOf(cur)[rem[0]], st, rem[1..], lookup, fuel))
    ensures forall v :: HandleCustomMethod(d, v, st, rem, lookup, fuel) == HandleNamedVerb(d, ["post_" + v, v], st, rem, lookup, fuel)
    ensures HandleDelete(d, st, rem, lookup, fuel) == HandleNamedVerb(d, ["post_delete", "delete"], st, rem, lookup, fuel)
  {
  }

  /** The names a GET can bind at the controller it starts on: a listing or
      single-item getter, the method a trailing `new`, `edit` or `delete`
      selects, a trailing custom action, the exposed head, or a fallback name. */
  function GetNames(d: Node, rem: seq<string>): set<string>
  {
    {"get_all", "get", "get_one", "_default", "index"}
    + (if |rem| == 0 then {} else {rem[0]})
    + (if |rem| > 0 && rem[|rem| - 1] in {"new", "edit", "delete"} then {SuffixMethod(rem[|rem| - 1])} else {})
    + (if |rem| > 0 && rem[|rem| - 1] in d.customActions then {"get_" + rem[|rem| - 1], rem[|rem| - 1]} else {})
  }

  /** Without `_lookup` in play, a GET resolved at the controller it started on
      (or above it) binds one of `GetNames`; anything else is bound deeper. */
  lemma GetBindsOnlyGetNames(d: Node, st: State, rem: seq<string>, lookup: Lookup, fuel: nat)
    requires |st.stack| > 0 && NoLookupStack(st)
    ensures var r := HandleGet(d, st, rem, lookup, fuel);
            r.Resolved? && |r.st.stack| <= |st.stack| ==> r.st.action.value.name in GetNames(d, rem)
  {
    if |rem| > 0 {
      var special := DeleteEditOrNew(st, rem);
      assert special.Some? ==> SuffixMethod(rem[|rem| - 1]) == special.value.action.value.name;
    }
  }

  /** Without `_lookup` in play, PUT or POST resolved at the controller it
      started on binds the verb's method, the exposed head, or a fallback name. */
  lemma PutPostBindsOnlyVerbOrHead(d: Node, verb: string, st: State, rem: seq<string>, lookup: Lookup, fuel: nat)
    requires |st.stack| > 0 && NoLookupStack(st)
    ensures var r := HandlePutOrPost(d, verb, st, rem, lookup, fuel);
            r.Resolved? && |r.st.stack| <= |st.stack| ==>
              r.st.action.value.name in {verb, "_default", "index"} || (|rem| > 0 && r.st.action.value.name == rem[0])
  {
  }

  /** Without `_lookup` in play, a verb handled by named candidates resolved at
      the controller it started on binds a candidate or a fallback name; in
      particular DELETE binds only `post_delete`, `delete`, `_default` or `index`,
      and never the exposed head. */
  lemma NamedVerbBindsOnlyCandidates(d: Node, candidates: seq<string>, st: State, rem: seq<string>, lookup: Lookup, fuel: nat)
    requires |st.stack| > 0 && NoLookupStack(st)
    ensures var r := HandleNamedVerb(d, candidates, st, rem, lookup, fuel);
            r.Resolved? && |r.st.stack| <= |st.stack| ==>
              r.st.action.value.name in candidates || r.st.action.value.name in {"_default", "index"}
    ensures var r := HandleDelete(d, st, rem, lookup, fuel);
            r.Resolved? && |r.st.stack| <= |st.stack| ==>
              r.st.action.value.name in {"post_delete", "delete", "_default", "index"}
  {
  }

  /** With `*args`, the routing arguments recorded for the first nested
      controller, the controller's own segment and the segments it receives read
      back as the whole remainder. */
  lemma VarArgsSplitReadsBack(d: Node, st: State, rem: seq<string>, lookup: Lookup, fuel: nat, sig: Sig, i: nat)
    requires |st.stack| > 0
    requires HasAttr(Current(st), Inspected(Current(st))) && AttrsOf(Current(st))[Inspected(Current(st))] == Method(sig)
    requires sig.varArgs && i < |rem| && IsController(Current(st), rem[i])
    requires forall j :: 0 <= j < i ==> !IsController(Current(st), rem[j])
    requires Distinct(sig.names) && rem[i] !in sig.names && rem[i] !in st.routing
    ensures var st' := AddRoutingArgs(st, rem[i], rem[..i], sig.names, true);
            && CheckForSubControllers(d, st, rem, lookup, fuel)
               == Some(DispatchController(d, rem[i], AttrsOf(Current(st))[rem[i]], st', rem[i + 1..], lookup, fuel))
            && Reassemble(st'.routing, sig.names[..Min(|sig.names|, i)], rem[i]) + [rem[i]] + rem[i + 1..] == rem
  {
    VarArgsSplitsAtFirstController(d, st, rem, lookup, fuel, sig, i);
    SplitReadsBack(st, rem, i, sig.names);
  }

  /** Without `*args`, the fixed arguments recorded for the nested controller,
      its segment and the segments it receives read back as the whole remainder. */
  lemma FixedArgsSplitReadsBack(d: Node, st: State, rem: seq<string>, lookup: Lookup, fuel: nat, sig: Sig)
    requires |st.stack| > 0
    requires HasAttr(Current(st), Inspected(Current(st))) && AttrsOf(Current(st))[Inspected(Current(st))] == Method(sig)
    requires !sig.varArgs && Distinct(sig.names)
    requires |sig.names| < |rem| && IsController(Current(st), rem[|sig.names|])
    ensures var item := rem[|sig.names|];
            var st' := AddRoutingArgs(st, item, rem, sig.names, false);
            && CheckForSubControllers(d, st, rem, lookup, fuel)
               == Some(DispatchController(d, item, AttrsOf(Current(st))[item], st', rem[|sig.names| + 1..], lookup, fuel))
            && FixedValues(st'.routing, sig.names) + [item] + rem[|sig.names| + 1..] == rem
  {
    FixedArgsSplitAtArity(d, st, rem, lookup, fuel, sig);
    FixedSplitReadsBack(st, rem, sig.names);
  }
}

=== FILE: scenarios.dfy ===
/** Whole requests against the small controllers of the repository's tests:
    the request path is normalised into a fresh state and dispatched from the
    root, and the outcome is the one the tests expect of the code. */
module Scenarios {
  import opened Wrappers
  import opened Text
  import opened Signature
  import opened Controllers
  import opened DispatchState
  import opened Dispatchers
  import opened ObjectRules
  import RestRules

  /** `def m(self)` */
  const NoArgs := Sig([], 0, false, false)
  /** `def m(self, *args, **kw)` */
  const AnyArgs := Sig([], 0, true, true)
  /** `def with_args(self, a, b)` */
  const TwoArgs := Sig(["a", "b"], 0, false, false)

  /** `MockDispatcher`: `index`, `_default(*args, **kw)`, `no_args`, `with_args(a, b)`. */
  function MockRoot(): Node
  {
    Node("MockDispatcher", ObjectDispatcher, false,
         map["index" := Method(NoArgs), "_default" := Method(AnyArgs), "no_args" := Method(NoArgs), "with_args" := Method(TwoArgs)],
         [])
  }

  /** `MockDispatcherWithNoDefaultOrIndex`: `no_args`, `with_args(a, b)`. */
  function NoDefaultOrIndexRoot(): Node
  {
    Node("MockDispatcherWithNoDefaultOrIndex", ObjectDispatcher, false,
         map["no_args" := Method(NoArgs), "with_args" := Method(TwoArgs)], [])
  }

  /** `MockDispatcherWithNoDefault`: `index` only. */
  function NoDefaultRoot(): Node
  {
    Node("MockDispatcherWithNoDefault", ObjectDispatcher, false, map["index" := Method(NoArgs)], [])
  }

  /** `MockDispatcherWithIndexWithArgVars`: `index(*args)`. */
  function IndexWithArgVarsRoot(): Node
  {
    Node("MockDispatcherWithIndexWithArgVars", ObjectDispatcher, false,
         map["index" := Method(Sig([], 0, true, false))], [])
  }

  /** `MockDispatcherWithSecurity`: a raising `_check_security` and `_default(*args, **kw)`. */
  function SecurityRoot(): Node
  {
    Node("MockDispatcherWithSecurity", ObjectDispatcher, true, map["_default" := Method(AnyArgs)], [])
  }

  /** The REST `MockDispatcher`: `get_one(mock_id)` and `get_all`. */
  function RestRoot(): Node
  {
    Node("MockDispatcher", RestDispatcher, false,
         map["get_one" := Method(Sig(["mock_id"], 0, false, false)), "get_all" := Method(NoArgs)], [])
  }

  /** `MockSimpleDispatcher`: `get`. */
  function SimpleRestRoot(): Node
  {
    Node("MockSimpleDispatcher", RestDispatcher, false, map["get" := Method(NoArgs)], [])
  }

  /** None of these controllers has a `_lookup`. */
  function KeepLookup(n: Node, rem: seq<string>): (Node, seq<string>)
  {
    (n, rem)
  }

  /** A GET request with no params for the path already split into `segments`,
      rooted at `root`. */
  function Request(root: Node, segments: seq<string>): State
  {
    NewState("GET", GivenList(segments), map[], [], root)
  }

  /** The name and remainder of the action a resolved request binds. */
  predicate Binds(r: Outcome, name: string, remainder: seq<string>)
  {
    r.Resolved? && r.st.action.Some? && r.st.action.value.name == name && r.st.remainder == Some(remainder)
  }

  /** The request path `/` has no segments. */
  lemma RootPath()
    ensures NormalizePath(RequestPath("/")) == NormalizePath(GivenList([])) == ([], None)
  {
    assert "/"[1..] == "";
    assert Split("", '/') == [""];
  }

  /** A request path of plain segments normalises to those segments, as if they
      had been given as a list. */
  lemma {:induction false} SegmentsPath(parts: seq<string>, pathInfo: string)
    requires |parts| >= 1 && pathInfo == "/" + Join(parts, '/')
    requires forall i :: 0 <= i < |parts| ==> parts[i] != "" && '/' !in parts[i] && '.' !in parts[i]
    ensures NormalizePath(RequestPath(pathInfo)) == NormalizePath(GivenList(parts)) == (parts, None)
  {
    assert pathInfo[1..] == Join(parts, '/');
    SplitJoin(parts, '/');
    assert RawSegments(RequestPath(pathInfo)) == parts;
  }

  /** Blank segments at both ends of a given list are dropped. */
  lemma BlankSegmentsScenario()
    ensures NormalizePath(GivenList(["", "a", "b", "", ""])) == (["a", "b"], None)
  {
    var raw := ["", "a", "b", "", ""];
    assert StripLeading(raw) == ["a", "b", "", ""];
    assert ["a", "b", "", ""][..3] == ["a", "b", ""];
    assert ["a", "b", ""][..2] == ["a", "b"];
    assert StripTrailing(["a", "b", "", ""]) == ["a", "b"];
  }

  /** A given string is split on '/'. */
  lemma StringPathScenario()
    ensures NormalizePath(GivenString("s1/s2")) == (["s1", "s2"], None)
  {
    SplitJoin(["s1", "s2"], '/');
    assert Join(["s1", "s2"], '/') == "s1/s2";
  }

  /** The text after the last '.' of a one-segment request path becomes the
      extension, and the text before it the segment. */
  lemma ExtensionPath(name: string, ext: string, pathInfo: string)
    requires pathInfo == "/" + name + "." + ext
    requires '/' !in name && '/' !in ext && '.' !in name && '.' !in ext
    ensures NormalizePath(RequestPath(pathInfo)) == ([name], Some(ext))
  {
    var s := pathInfo[1..];
    assert s == name + "." + ext;
    assert '/' !in s;
    SplitJoin([s], '/');
    assert RawSegments(RequestPath(pathInfo)) == [s];
    assert s != "" && '.' in s;
    assert StripTrailing(StripLeading([s])) == [s];
    SplitJoin([name, ext], '.');
    assert Join([name, ext], '.') == s;
    assert Split(s, '.')[..1] == [name];
  }

  /** The state a GET request with no params starts from, once its path is normalised. */
  function FreshAt(root: Node, path: seq<string>): State
  {
    State("GET", path, None, map[], [Frame("/", Sub(root))], map[], None, None, root, None, None)
  }

  /** A GET request for plain segments starts from the root alone, with that
      path, no extension and no params. */
  lemma RequestIs(root: Node, segments: seq<string>)
    requires forall i :: 0 <= i < |segments| ==> segments[i] != "" && '.' !in segments[i]
    ensures Request(root, segments) == FreshAt(root, segments)
  {
    assert StripLeading(segments) == segments;
    assert StripTrailing(segments) == segments;
    assert StripExtension(segments) == (segments, None);
    assert DropIgnored(map[], []) == map[];
  }

  /** A head the root does not have sends the whole path to the fallback search,
      which starts at the root with the path emptied. */
  lemma UnknownHeadAtRoot(d: Node, root: Node, rem: seq<string>, fuel: nat)
    requires !root.rejects && |rem| > 0 && rem[0] !in root.attrs
    ensures ObjectDispatch(d, FreshAt(root, rem), rem, KeepLookup, fuel)
            == FallbackLevels(d, FreshAt(root, []), rem, 1, KeepLookup, fuel)
  {
    var st := FreshAt(root, rem);
    assert ObjectDispatch(d, st, rem, KeepLookup, fuel) == Fallback(d, st, rem, KeepLookup, fuel);
    assert st.path[0..] == rem;
    FallbackTrimsPath(d, st, rem, KeepLookup, fuel);
    assert st.(path := st.path[..0]) == FreshAt(root, []);
  }

  /** `/`, no segments, reaches `index`. */
  lemma IndexScenario(root: Node)
    requires root == MockRoot()
    ensures Binds(Resolve(FreshAt(root, []), KeepLookup, 1), "index", [])
  {
    var st := FreshAt(root, []);
    assert Resolve(st, KeepLookup, 1) == ObjectDispatch(root, st, [], KeepLookup, 1);
    IndexOnEmptyRemainder(root, st, KeepLookup, 1);
  }

  /** `/no_args` reaches `no_args`. */
  lemma NoArgsScenario(root: Node)
    requires root == MockRoot()
    ensures Binds(Resolve(FreshAt(root, ["no_args"]), KeepLookup, 1), "no_args", [])
  {
    var rem := ["no_args"];
    var st := FreshAt(root, rem);
    assert rem[1..] == [];
    assert Resolve(st, KeepLookup, 1) == ObjectDispatch(root, st, rem, KeepLookup, 1);
    ExposedHeadBinds(root, st, rem, KeepLookup, 1);
  }

  /** `/with_args/a/b` reaches `with_args` with `a` and `b`. */
  lemma WithArgsScenario(root: Node)
    requires root == MockRoot()
    ensures Binds(Resolve(FreshAt(root, ["with_args", "a", "b"]), KeepLookup, 1), "with_args", ["a", "b"])
  {
    var rem := ["with_args", "a", "b"];
    var st := FreshAt(root, rem);
    assert rem[1..] == ["a", "b"];
    assert Resolve(st, KeepLookup, 1) == ObjectDispatch(root, st, rem, KeepLookup, 1);
    ExposedHeadBinds(root, st, rem, KeepLookup, 1);
  }

  /** `with_args(a, b)` does not accept `a` alone without params. */
  lemma OneArgShort()
    ensures !Matches(TwoArgs, map[], ["a"])
  {
    var none: map<string, string> := map[];
    assert RequiredCount(TwoArgs) == 2 && TwoArgs.names[1] !in none;
  }

  /** `/with_args/a` against the root `root`, which exposes `with_args(a, b)`:
      the method does not accept `a` alone, so it is pushed as a controller, and
      with nothing to match there the fallback search starts with `a` left. */
  lemma WithArgsShort(root: Node, fuel: nat)
    requires root.kind == ObjectDispatcher && !root.rejects && fuel > 0
    requires "with_args" in root.attrs && root.attrs["with_args"] == Method(TwoArgs)
    ensures var st := FreshAt(root, ["with_args", "a"]);
            Resolve(st, KeepLookup, fuel)
            == Fallback(root, AddController(FreshAt(root, ["with_args", "a"]), "with_args", Method(TwoArgs)), ["a"], KeepLookup, fuel - 1)
  {
    var rem := ["with_args", "a"];
    var st := FreshAt(root, rem);
    assert rem[1..] == ["a"];
    OneArgShort();
    var st1 := AddController(st, "with_args", Method(TwoArgs));
    assert Resolve(st, KeepLookup, fuel) == ObjectDispatch(root, st, rem, KeepLookup, fuel);
    AttributeHeadDescends(root, st, rem, KeepLookup, fuel);
    PlainChildContinues(root, "with_args", Method(TwoArgs), st, ["a"], KeepLookup, fuel);
    assert Dispatch(root, st1, ["a"], KeepLookup, fuel - 1) == ObjectDispatch(root, st1, ["a"], KeepLookup, fuel - 1);
  }

  /** Back from `with_args` with `a` left: the pushed method has no `_default`,
      `_lookup` or `index`, so the search pops it and goes on at the root with
      the whole path as the remainder. */
  lemma WithArgsBacksUp(root: Node, fuel: nat)
    ensures Fallback(root, AddController(FreshAt(root, ["with_args", "a"]), "with_args", Method(TwoArgs)), ["a"], KeepLookup, fuel)
            == FallbackLevels(root, FreshAt(root, []), ["with_args", "a"], 1, KeepLookup, fuel)
  {
    var rem := ["with_args", "a"];
    var st1 := AddController(FreshAt(root, rem), "with_args", Method(TwoArgs));
    var st2 := st1.(path := ["with_args"]);
    assert st1.path[1..] == ["a"];
    FallbackTrimsPath(root, st1, ["a"], KeepLookup, fuel);
    assert FallbackLevels(root, st2, ["a"], 2, KeepLookup, fuel) == IndexOrBacktrack(root, st2, Method(TwoArgs), ["a"], 2, KeepLookup, fuel);
    FallbackIndexOrBacktrack(root, st2, Method(TwoArgs), ["a"], 2, KeepLookup, fuel);
    assert ["with_args"] + ["a"] == rem;
    assert st2.(stack := st2.stack[..1], path := []) == FreshAt(root, []);
  }

  /** `/with_args/a` against such a root ends up back at the root, searching
      with the whole path as the remainder. */
  lemma WithArgsReachesRoot(root: Node, fuel: nat)
    requires root.kind == ObjectDispatcher && !root.rejects && fuel > 0
    requires "with_args" in root.attrs && root.attrs["with_args"] == Method(TwoArgs)
    ensures Resolve(FreshAt(root, ["with_args", "a"]), KeepLookup, fuel)
            == FallbackLevels(root, FreshAt(root, []), ["with_args", "a"], 1, KeepLookup, fuel - 1)
  {
    WithArgsShort(root, fuel);
    WithArgsBacksUp(root, fuel - 1);
  }

  /** `/with_args/a` lacks `b`: `with_args` is pushed as a controller, it has nothing
      for `a`, and the search backs up to the root's `_default`, which receives
      the whole path again. */
  lemma MissingArgsDefaultScenario(root: Node)
    requires root == MockRoot()
    ensures Binds(Resolve(FreshAt(root, ["with_args", "a"]), KeepLookup, 2), "_default", ["with_args", "a"])
  {
    WithArgsReachesRoot(root, 2);
    DefaultWins(root, FreshAt(root, []), ["with_args", "a"], 1, KeepLookup, 1);
  }

  /** The same request with neither `_default` nor `index` anywhere is not found. */
  lemma MissingArgsNotFoundScenario(root: Node)
    requires root == NoDefaultOrIndexRoot()
    ensures Resolve(FreshAt(root, ["with_args", "a"]), KeepLookup, 2) == NotFound
  {
    WithArgsReachesRoot(root, 2);
    var st := FreshAt(root, []);
    assert NoFallbackHandlers(st) by {
      assert |st.stack| == 1 && st.stack[0].controller == Sub(root);
    }
    FallbackLevelsNotFound(root, st, ["with_args", "a"], KeepLookup, 1);
  }

  /** A state rooted at a controller with only an argument-less `index`, walked
      by another object dispatcher: nothing takes `with_args/a`, so it is not found. */
  lemma MissingArgsNoDefaultScenario(d: Node, root: Node)
    requires d == NoDefaultOrIndexRoot() && root == NoDefaultRoot()
    ensures var st := FreshAt(root, ["with_args", "a"]);
            ObjectDispatch(d, st, st.path, KeepLookup, 1) == NotFound
  {
    var rem := ["with_args", "a"];
    UnknownHeadAtRoot(d, root, rem, 1);
    var st1 := FreshAt(root, []);
    assert !Matches(NoArgs, st1.params, rem);
    assert FallbackLevels(d, st1, rem, 1, KeepLookup, 1) == IndexOrBacktrack(d, st1, Sub(root), rem, 1, KeepLookup, 1);
    FallbackIndexOrBacktrack(d, st1, Sub(root), rem, 1, KeepLookup, 1);
  }

  /** With only `index(*args)`, the same request lands on `index` with the whole path. */
  lemma MissingArgsIndexScenario(root: Node)
    requires root == IndexWithArgVarsRoot()
    ensures Binds(Resolve(FreshAt(root, ["with_args", "a"]), KeepLookup, 1), "index", ["with_args", "a"])
  {
    var rem := ["with_args", "a"];
    assert Resolve(FreshAt(root, rem), KeepLookup, 1) == ObjectDispatch(root, FreshAt(root, rem), rem, KeepLookup, 1);
    UnknownHeadAtRoot(root, root, rem, 1);
    var st1 := FreshAt(root, []);
    assert FallbackLevels(root, st1, rem, 1, KeepLookup, 1) == IndexOrBacktrack(root, st1, Sub(root), rem, 1, KeepLookup, 1);
    FallbackIndexOrBacktrack(root, st1, Sub(root), rem, 1, KeepLookup, 1);
  }

  /** A root whose security check raises refuses every request. */
  lemma SecurityScenario(root: Node)
    requires root == SecurityRoot()
    ensures Resolve(FreshAt(root, ["with_args", "a"]), KeepLookup, 1) == SecurityRejected
  {
  }

  /** Request params the signature does not name do not stop `index` from being
      bound at `/`: the signature check only looks at the names it declares. */
  lemma UnrelatedParamsScenario(root: Node)
    requires root == MockRoot()
    ensures Binds(Resolve(NewState("GET", GivenList([]), map["a" := "1"], [], root), KeepLookup, 1), "index", [])
  {
    var st := NewState("GET", GivenList([]), map["a" := "1"], [], root);
    assert st.path == [];
    assert Resolve(st, KeepLookup, 1) == ObjectDispatch(root, st, [], KeepLookup, 1);
    IndexOnEmptyRemainder(root, st, KeepLookup, 1);
  }

  /** A REST GET request for `segments` at `root`, whose verb is now stored. */
  lemma RestGetIs(root: Node, segments: seq<string>)
    requires root.kind == RestDispatcher
    requires forall i :: 0 <= i < |segments| ==> segments[i] != "" && '.' !in segments[i]
    ensures var st := FreshAt(root, segments);
            var st1 := st.(httpMethod := Some("get"));
            && st1.path == segments && st1.params == map[] && Current(st1) == Sub(root)
            && Resolve(st, KeepLookup, 1) == RestDispatch(root, st1, segments, KeepLookup, 1)
  {
    var st := FreshAt(root, segments);
    assert Lower("GET") == "get";
    assert EffectiveVerb("GET", map[]) == Success("get");
    assert Resolve(st, KeepLookup, 1) == RestDispatch(root, st, segments, KeepLookup, 1);
  }

  /** REST: `GET /` reaches `get_all`. */
  lemma RestGetAllScenario(root: Node)
    requires root == RestRoot()
    ensures Binds(Resolve(FreshAt(root, []), KeepLookup, 1), "get_all", [])
  {
    RestGetIs(root, []);
    var st1 := FreshAt(root, []).(httpMethod := Some("get"));
    assert CheckForSubControllers(root, st1, [], KeepLookup, 1) == None;
    RestRules.GetWithEmptyRemainder(root, st1, KeepLookup, 1);
  }

  /** REST: `GET /asdf` reaches `get_one` with `asdf` and the params untouched. */
  lemma RestGetOneScenario(root: Node)
    requires root == RestRoot()
    ensures var r := Resolve(FreshAt(root, ["asdf"]), KeepLookup, 1);
            Binds(r, "get_one", ["asdf"]) && r.st.params == map[]
  {
    var rem := ["asdf"];
    RestGetIs(root, rem);
    var st1 := FreshAt(root, rem).(httpMethod := Some("get"));
    var cur := Current(st1);
    assert CheckForSubControllers(root, st1, rem, KeepLookup, 1) == None;
    assert DeleteEditOrNew(st1, rem) == None;
    assert CustomGet(root, st1, rem) == None;
    assert Matches(SigOf(cur, "get_one"), st1.params, rem);
    RestRules.GetOnePreferredOverGet(root, st1, rem, KeepLookup, 1);
  }

  /** REST: `GET /` on a controller with only `get` reaches `get`. */
  lemma RestSimpleGetScenario(root: Node)
    requires root == SimpleRestRoot()
    ensures Binds(Resolve(FreshAt(root, []), KeepLookup, 1), "get", [])
  {
    RestGetIs(root, []);
    var st1 := FreshAt(root, []).(httpMethod := Some("get"));
    assert CheckForSubControllers(root, st1, [], KeepLookup, 1) == None;
    RestRules.GetWithEmptyRemainder(root, st1, KeepLookup, 1);
  }
}

=== FILE: signature.dfy ===
/** Signature matching: does a callable's argument descriptor accept a
    positional remainder together with a map of named request parameters,
    and how are the two reconciled into call arguments. */
module Signature {
  import opened Wrappers

  /** The argument descriptor of an exposed method, in place of `inspect.getargspec`:
      the positional names after `self`, how many trailing names carry a default,
      whether `*args` and whether `**kw` is accepted. */
  datatype Sig = Sig(names: seq<string>, defaults: nat, varArgs: bool, varKw: bool)

  /** Python never lets a function declare the same argument name twice. */
  predicate Distinct(names: seq<string>)
  {
    forall i, j :: 0 <= i < j < |names| ==> names[i] != names[j]
  }

  /** How many leading names have no default: `argvars[:-len(defaults)]` under
      Python's slicing, which yields nothing when there are more defaults than names. */
  function RequiredCount(sig: Sig): nat
  {
    if sig.defaults <= |sig.names| then |sig.names| - sig.defaults else 0
  }

  function Required(sig: Sig): seq<string>
  {
    sig.names[..RequiredCount(sig)]
  }

  function Optional(sig: Sig): seq<string>
  {
    sig.names[RequiredCount(sig)..]
  }

  /** Closed form of the signature check: a remainder shorter than the required
      names needs every uncovered required name among the params; otherwise the
      remainder must fit the positional names unless `*args` soaks up the rest. */
  predicate Matches(sig: Sig, params: map<string, string>, remainder: seq<string>)
  {
    if |remainder| < RequiredCount(sig) then
      forall i :: |remainder| <= i < RequiredCount(sig) ==> sig.names[i] in params
    else
      |remainder| <= |sig.names| || sig.varArgs
  }

  /** `method_matches_args`, step by step: trim the required names the remainder
      covers, pop the leading ones params supplies, then check the remainder
      length against the positional names and re-check the uncovered slice. */
  method MethodMatchesArgs(sig: Sig, params: map<string, string>, remainder: seq<string>)
    returns (ok: bool)
    ensures ok == Matches(sig, params, remainder)
  {
    var argvars := sig.names;
    var required := argvars;
    if sig.defaults > 0 {
      required := argvars[..RequiredCount(sig)];
    }
    if |remainder| < |required| {
      required := required[|remainder|..];
    } else {
      required := [];
    }

    // remove the required names found in params, stopping at the first miss
    var pending := required;
    var j := 0;
    while j < |pending| && pending[j] in params
      invariant 0 <= j <= |pending|
      invariant required == pending[j..]
      invariant forall t :: 0 <= t < j ==> pending[t] in params
    {
      required := required[1..];
      j := j + 1;
    }

    if |required| == 0 {
      if |argvars| < |remainder| && !sig.varArgs {
        return false;
      }
      // `var_args[len(remainder):-len(defaults)]`; with no defaults the stop is `-0`, i.e. 0
      var stop := if sig.defaults == 0 then 0 else RequiredCount(sig);
      var uncovered := if |remainder| < stop then argvars[|remainder|..stop] else [];
      ok := true;
      var t := 0;
      while t < |uncovered|
        invariant 0 <= t <= |uncovered|
        invariant ok == forall u :: 0 <= u < t ==> uncovered[u] in params
      {
        ok := ok && uncovered[t] in params;
        t := t + 1;
      }
      if |remainder| < stop {
        assert forall u :: 0 <= u < |uncovered| ==> uncovered[u] == pending[u];
      }
      return ok;
    }
    return false;
  }

  /** A remainder longer than the positional names is refused unless the callable takes `*args`. */
  lemma LongRemainderRejected(sig: Sig, params: map<string, string>, remainder: seq<string>)
    requires |remainder| > |sig.names| && !sig.varArgs
    ensures !Matches(sig, params, remainder)
  {
  }

  /** A required name the remainder does not reach, and params does not hold, makes the match fail. */
  lemma ShortRemainderMissingName(sig: Sig, params: map<string, string>, remainder: seq<string>, i: nat)
    requires |remainder| <= i < RequiredCount(sig)
    requires sig.names[i] !in params
    ensures !Matches(sig, params, remainder)
  {
  }

  /** The match ignores the `**kw` flag and every param that is not a required name. */
  lemma MatchesIgnoresUnrelated(sig: Sig, sig': Sig, params: map<string, string>, params': map<string, string>,
                                remainder: seq<string>)
    requires sig'.names == sig.names && sig'.defaults == sig.defaults && sig'.varArgs == sig.varArgs
    requires forall i :: 0 <= i < RequiredCount(sig) ==> (sig.names[i] in params <==> sig.names[i] in params')
    ensures Matches(sig, params, remainder) == Matches(sig', params', remainder)
  {
  }

  /** The params values that are set and truthy for `names`, in order. */
  function Truthy(params: map<string, string>, names: seq<string>): (vals: seq<string>)
    ensures |vals| <= |names|
  {
    if |names| == 0 then []
    else
      var last := names[|names| - 1];
      Truthy(params, names[..|names| - 1]) + (if last in params && params[last] != "" then [params[last]] else [])
  }

  /** `ps` is `params` with the keys listed in `names` deleted. */
  ghost predicate Without(ps: map<string, string>, params: map<string, string>, names: seq<string>)
  {
    && (forall k :: k in ps <==> k in params && k !in names)
    && (forall k :: k in ps ==> ps[k] == params[k])
  }

  /** Deleting one more name extends the list of deleted names. */
  lemma WithoutExtend(ps: map<string, string>, params: map<string, string>, names: seq<string>, name: string)
    requires Without(ps, params, names) && name !in names
    ensures Without(ps - {name}, params, names + [name])
  {
  }

  /** The truthy values of one more name: those of the shorter list, then its own. */
  lemma TruthySnoc(params: map<string, string>, names: seq<string>, name: string)
    ensures Truthy(params, names + [name])
            == Truthy(params, names) + (if name in params && params[name] != "" then [params[name]] else [])
  {
    assert (names + [name])[..|names|] == names;
  }

  /** How many optional names the second pass of `remove_argspec_params_from_params`
      visits: as many as there are remainder slots past the required names. */
  function OptionalSlots(sig: Sig, remainderLength: nat): nat
  {
    var r := RequiredCount(sig);
    if remainderLength > r then Min(remainderLength - r, |sig.names| - r) else 0
  }

  /** `name` is the first of `names[..n]` that params lacks: the lookup that
      raises `KeyError` in the first pass. */
  ghost predicate FirstMissing(names: seq<string>, params: map<string, string>, n: nat, name: string)
  {
    exists t :: 0 <= t < n && t < |names| && names[t] == name && name !in params
                && forall u :: 0 <= u < t ==> names[u] in params
  }

  /** `remove_argspec_params_from_params`: move the values params holds for the
      positional names into the remainder, so no argument is passed twice.
      The error value is the required name whose lookup raises `KeyError`. */
  method RemoveArgspecParams(sig: Sig, params: map<string, string>, remainder: seq<string>)
    returns (r: Result<(map<string, string>, seq<string>), string>)
    requires Distinct(sig.names)
    ensures |sig.names| == 0 || |remainder| == 0 ==> r == Success((params, remainder))
    ensures |sig.names| > 0 && |remainder| > 0 ==>
              (r.Failure? <==> exists t :: 0 <= t < Min(|remainder|, RequiredCount(sig)) && sig.names[t] !in params)
    ensures r.Failure? ==> FirstMissing(sig.names, params, Min(|remainder|, RequiredCount(sig)), r.error)
    ensures r.Success? && |sig.names| > 0 && |remainder| > 0 ==>
              var (ps, rem) := r.value;
              var req := Required(sig);
              var n := Min(|remainder|, |req|);
              && Without(ps, params, req + Optional(sig)[..OptionalSlots(sig, |remainder|)])
              && |rem| == |remainder| + |Truthy(params, req[n..])|
              && (forall t :: 0 <= t < n ==> rem[t] == params[req[t]])
              && rem[|remainder|..] == Truthy(params, req[n..])
              && (forall t :: |req| <= t < |remainder| ==>
                    rem[t] == (if t < |sig.names| && sig.names[t] in params then params[sig.names[t]] else remainder[t]))
  {
    if |sig.names| == 0 || |remainder| == 0 {
      return Success((params, remainder));
    }
    var first := RequiredPass(sig, params, remainder);
    if first.Failure? {
      return Failure(first.error);
    }
    var (ps, rem) := first.value;
    var second := OptionalPass(sig, params, remainder, ps, rem);
    return Success(second);
  }

  /** The first pass of `remove_argspec_params_from_params`: each required name
      overwrites its remainder slot, or is appended when the remainder is too short
      and its value is truthy, and is deleted from params. */
  method RequiredPass(sig: Sig, params: map<string, string>, remainder: seq<string>)
    returns (r: Result<(map<string, string>, seq<string>), string>)
    requires Distinct(sig.names)
    ensures r.Failure? <==> exists t :: 0 <= t < Min(|remainder|, RequiredCount(sig)) && sig.names[t] !in params
    ensures r.Failure? ==> FirstMissing(sig.names, params, Min(|remainder|, RequiredCount(sig)), r.error)
    ensures r.Success? ==>
              var (ps, rem) := r.value;
              var req := Required(sig);
              var n := Min(|remainder|, |req|);
              && Without(ps, params, req)
              && |rem| == |remainder| + |Truthy(params, req[n..])|
              && (forall t :: 0 <= t < n ==> rem[t] == params[req[t]])
              && (forall t :: n <= t < |remainder| ==> rem[t] == remainder[t])
              && rem[|remainder|..] == Truthy(params, req[n..])
  {
    var required := Required(sig);
    var n := Min(|remainder|, |required|);
    // `i < len(remainder)` holds exactly for the first n names: the remainder
    // only grows once the index has passed its original length
    assert |required| == RequiredCount(sig);
    assert forall t :: 0 <= t < |required| ==> required[t] == sig.names[t];
    var replaced := ReplaceCovered(params, required, remainder);
    if replaced.Failure? {
      return Failure(replaced.error);
    }
    var (ps, rem) := replaced.value;
    var appended := AppendUncovered(params, required, n, ps, rem);
    assert forall t :: 0 <= t < |remainder| ==> appended.1[t] == rem[t] by {
      assert appended.1[..|rem|] == rem;
    }
    return Success(appended);
  }

  /** Required names 0..n-1 of the first pass: each replaces its remainder slot;
      a name missing from params raises `KeyError`. */
  method ReplaceCovered(params: map<string, string>, required: seq<string>, remainder: seq<string>)
    returns (r: Result<(map<string, string>, seq<string>), string>)
    requires Distinct(required)
    ensures r.Failure? <==> exists t :: 0 <= t < Min(|remainder|, |required|) && required[t] !in params
    ensures r.Failure? ==> FirstMissing(required, params, Min(|remainder|, |required|), r.error)
    ensures r.Success? ==>
              var (ps, rem) := r.value;
              var n := Min(|remainder|, |required|);
              && Without(ps, params, required[..n])
              && |rem| == |remainder|
              && (forall t :: 0 <= t < n ==> rem[t] == params[required[t]])
              && (forall t :: n <= t < |remainder| ==> rem[t] == remainder[t])
  {
    var n := Min(|remainder|, |required|);
    var ps := params;
    var rem := remainder;
    var i := 0;
    while i < n
      invariant 0 <= i <= n
      invariant Without(ps, params, required[..i])
      invariant |rem| == |remainder|
      invariant forall t :: 0 <= t < i ==> required[t] in params && rem[t] == params[required[t]]
      invariant forall t :: i <= t < |remainder| ==> rem[t] == remainder[t]
    {
      var name := required[i];
      assert name !in required[..i];
      if name !in ps {
        assert FirstMissing(required, params, n, name) by {
          assert required[i] == name;
        }
        return Failure(name);
      }
      rem := rem[i := ps[name]];
      ps := ps - {name};
      assert required[..i + 1] == required[..i] + [name];
      i := i + 1;
    }
    return Success((ps, rem));
  }

  /** The remainder of the first pass after required names n..i-1 past its end:
      the original items, then those names' truthy values. */
  ghost predicate Appended(params: map<string, string>, required: seq<string>, n: nat, i: nat,
                           rem0: seq<string>, rem: seq<string>)
  {
    && n <= i <= |required|
    && |rem0| <= |rem|
    && rem[..|rem0|] == rem0
    && rem[|rem0|..] == Truthy(params, required[n..i])
  }

  /** Appending one more name's truthy value keeps `Appended`. */
  lemma AppendStep(params: map<string, string>, required: seq<string>, n: nat, i: nat,
                   rem0: seq<string>, rem: seq<string>)
    requires i < |required|
    requires Appended(params, required, n, i, rem0, rem)
    ensures var name := required[i];
            Appended(params, required, n, i + 1, rem0,
                     if name in params && params[name] != "" then rem + [params[name]] else rem)
  {
    var name := required[i];
    assert required[n..i + 1] == required[n..i] + [name];
    TruthySnoc(params, required[n..i], name);
    var rem' := if name in params && params[name] != "" then rem + [params[name]] else rem;
    assert rem'[..|rem0|] == rem[..|rem0|];
    assert rem'[|rem0|..] == rem[|rem0|..] + (rem'[|rem|..]);
  }

  /** Deleting one more required name: it was not deleted before. */
  lemma DeleteRequiredStep(params: map<string, string>, required: seq<string>, i: nat, ps: map<string, string>)
    requires Distinct(required) && i < |required|
    requires Without(ps, params, required[..i])
    ensures var name := required[i];
            && (name in ps <==> name in params)
            && (name in ps ==> ps[name] == params[name])
            && Without(ps - {name}, params, required[..i + 1])
  {
    var name := required[i];
    assert name !in required[..i];
    assert required[..i + 1] == required[..i] + [name];
    WithoutExtend(ps, params, required[..i], name);
  }

  /** Required names n.. of the first pass, past the end of the remainder: a truthy
      value is appended, and the name is deleted from params. */
  method AppendUncovered(params: map<string, string>, required: seq<string>, n: nat,
                         ps0: map<string, string>, rem0: seq<string>)
    returns (r: (map<string, string>, seq<string>))
    requires Distinct(required)
    requires n <= |required|
    requires Without(ps0, params, required[..n])
    ensures var (ps, rem) := r;
            && Without(ps, params, required)
            && |rem| == |rem0| + |Truthy(params, required[n..])|
            && rem[..|rem0|] == rem0
            && rem[|rem0|..] == Truthy(params, required[n..])
  {
    var ps := ps0;
    var rem := rem0;
    var i := n;
    assert required[n..n] == [];
    while i < |required|
      invariant Appended(params, required, n, i, rem0, rem)
      invariant Without(ps, params, required[..i])
    {
      var name := required[i];
      var rem' := if name in ps && ps[name] != "" then rem + [ps[name]] else rem;
      assert Without(ps - {name}, params, required[..i + 1]) && Appended(params, required, n, i + 1, rem0, rem') by {
        DeleteRequiredStep(params, required, i, ps);
        AppendStep(params, required, n, i, rem0, rem);
      }
      rem := rem';
      ps := ps - {name};
      i := i + 1;
    }
    assert Without(ps, params, required) by {
      assert required[..i] == required;
    }
    assert rem[|rem0|..] == Truthy(params, required[n..]) by {
      assert required[n..i] == required[n..];
    }
    return (ps, rem);
  }

  /** The remainder of the second pass after j optional names: each one params
      holds has overwritten the slot it lines up with, past the R required slots. */
  ghost predicate SlotsOverlaid(R: nat, optional: seq<string>, params: map<string, string>, j: nat,
                                rem0: seq<string>, rem: seq<string>)
  {
    && j <= |optional|
    && |rem| == |rem0|
    && (forall t :: 0 <= t < |rem| && (t < R || t >= R + j) ==> rem[t] == rem0[t])
    && (forall t :: R <= t < R + j && t < |rem| ==>
          rem[t] == (if optional[t - R] in params then params[optional[t - R]] else rem0[t]))
  }

  /** The state of the second pass after j optional names: they are deleted, and
      the remainder is overlaid up to them. */
  ghost predicate Overlaid(sig: Sig, params: map<string, string>, j: nat,
                           rem0: seq<string>, ps: map<string, string>, rem: seq<string>)
  {
    && j <= |Optional(sig)|
    && Without(ps, params, Required(sig) + Optional(sig)[..j])
    && SlotsOverlaid(RequiredCount(sig), Optional(sig), params, j, rem0, rem)
  }

  /** Overlaying one more slot, with the value params holds for its name. */
  lemma SlotsStep(R: nat, optional: seq<string>, params: map<string, string>, j: nat,
                  rem0: seq<string>, rem: seq<string>, present: bool, value: string)
    requires j < |optional| && R + j < |rem0|
    requires present <==> optional[j] in params
    requires present ==> value == params[optional[j]]
    requires SlotsOverlaid(R, optional, params, j, rem0, rem)
    ensures SlotsOverlaid(R, optional, params, j + 1, rem0, if present then rem[R + j := value] else rem)
  {
  }

  /** Deleting one more optional name: it was not deleted before. */
  lemma DeleteOptionalStep(sig: Sig, params: map<string, string>, j: nat, ps: map<string, string>)
    requires Distinct(sig.names)
    requires j < |Optional(sig)|
    requires Without(ps, params, Required(sig) + Optional(sig)[..j])
    ensures var name := Optional(sig)[j];
            && (name in ps <==> name in params)
            && (name in ps ==> ps[name] == params[name])
            && Without(ps - {name}, params, Required(sig) + Optional(sig)[..j + 1])
  {
    var R := RequiredCount(sig);
    var required := Required(sig);
    var optional := Optional(sig);
    var name := optional[j];
    assert required + optional[..j] == sig.names[..R + j];
    assert name == sig.names[R + j];
    assert name !in sig.names[..R + j];
    WithoutExtend(ps, params, required + optional[..j], name);
    assert (required + optional[..j]) + [name] == required + optional[..j + 1];
  }

  /** The second pass: an optional name params holds overwrites the remainder
      slot it lines up with, if that slot exists, and is deleted from params. */
  method OptionalPass(sig: Sig, params: map<string, string>, remainder: seq<string>,
                      ps0: map<string, string>, rem0: seq<string>)
    returns (r: (map<string, string>, seq<string>))
    requires Distinct(sig.names)
    requires Without(ps0, params, Required(sig))
    requires |rem0| >= |remainder|
    requires RequiredCount(sig) < |remainder| ==> |rem0| == |remainder|
    ensures var (ps, rem) := r;
            && Without(ps, params, Required(sig) + Optional(sig)[..OptionalSlots(sig, |remainder|)])
            && |rem| == |rem0|
            && (forall t :: 0 <= t < |rem| && (t < RequiredCount(sig) || t >= |remainder|) ==> rem[t] == rem0[t])
            && (forall t :: RequiredCount(sig) <= t < |remainder| ==>
                  rem[t] == (if t < |sig.names| && sig.names[t] in params then params[sig.names[t]] else rem0[t]))
  {
    var R := RequiredCount(sig);
    var optional := Optional(sig);
    var slots := OptionalSlots(sig, |remainder|);
    var ps := ps0;
    var rem := rem0;
    assert Required(sig) + optional[..0] == Required(sig);
    var j := 0;
    while j < slots
      invariant j <= slots
      invariant Overlaid(sig, params, j, rem0, ps, rem)
    {
      var name := optional[j];
      DeleteOptionalStep(sig, params, j, ps);
      SlotsStep(R, optional, params, j, rem0, rem, name in ps, if name in ps then ps[name] else "");
      if name in ps {
        rem := rem[R + j := ps[name]];
      }
      ps := ps - {name};
      j := j + 1;
    }
    assert forall t :: R <= t < |remainder| && t < |sig.names| ==> t < R + slots && optional[t - R] == sig.names[t];
    return (ps, rem);
  }

  /** `get_params_with_argspec`: a copy of params in which each positional name the
      remainder reaches is set to its remainder item. */
  method GetParamsWithArgspec(sig: Sig, params: map<string, string>, remainder: seq<string>)
    returns (r: map<string, string>)
    requires Distinct(sig.names)
    ensures var n := Min(|sig.names|, |remainder|);
            && (forall k :: k in r <==> k in params || k in sig.names[..n])
            && (forall i :: 0 <= i < n ==> r[sig.names[i]] == remainder[i])
            && (forall k :: k in params && k !in sig.names[..n] ==> r[k] == params[k])
  {
    r := params;
    // the guard's `enumerate(remainder)` is always truthy, so only the names matter
    if |sig.names| > 0 {
      var i := 0;
      while i < |sig.names| && i < |remainder|
        invariant 0 <= i <= Min(|sig.names|, |remainder|)
        invariant forall k :: k in r <==> k in params || k in sig.names[..i]
        invariant forall t :: 0 <= t < i ==> r[sig.names[t]] == remainder[t]
        invariant forall k :: k in params && k !in sig.names[..i] ==> r[k] == params[k]
      {
        r := r[sig.names[i] := remainder[i]];
        assert sig.names[..i + 1] == sig.names[..i] + [sig.names[i]];
        i := i + 1;
      }
    }
  }
}

=== FILE: text.dfy ===
/** The string operations the dispatch core borrows from Python's `str`:
    `split` and `join` on a one-character separator, and ASCII `lower`. */
module Text {

  /** `s.split(sep)`: the pieces between occurrences of `sep`, always at least one. */
  function Split(s: string, sep: char): (parts: seq<string>)
    ensures |parts| >= 1
    ensures forall i :: 0 <= i < |parts| ==> sep !in parts[i]
    decreases |s|
  {
    if |s| == 0 then [""]
    else
      var rest := Split(s[1..], sep);
      if s[0] == sep then [""] + rest
      else [[s[0]] + rest[0]] + rest[1..]
  }

  /** `sep.join(parts)`. */
  function Join(parts: seq<string>, sep: char): string
    decreases |parts|
  {
    if |parts| == 0 then ""
    else if |parts| == 1 then parts[0]
    else parts[0] + [sep] + Join(parts[1..], sep)
  }

  /** Joining the pieces of a split gives back the original string. */
  lemma {:induction false} JoinSplit(s: string, sep: char)
    ensures Join(Split(s, sep), sep) == s
    decreases |s|
  {
    if |s| > 0 {
      var rest := Split(s[1..], sep);
      JoinSplit(s[1..], sep);
      if s[0] == sep {
        assert Split(s, sep) == [""] + rest;
        assert ([""] + rest)[1..] == rest;
      } else {
        var parts := [[s[0]] + rest[0]] + rest[1..];
        assert Split(s, sep) == parts;
        if |rest| == 1 {
          assert Join(rest, sep) == rest[0];
        } else {
          assert parts[1..] == rest[1..];
          assert Join(rest, sep) == rest[0] + [sep] + Join(rest[1..], sep);
        }
      }
    }
  }

  /** Splitting `a + t` where `a` holds no separator glues `a` onto the first piece of `t`. */
  lemma {:induction false} SplitPrefix(a: string, t: string, sep: char)
    requires sep !in a
    ensures Split(a + t, sep) == [a + Split(t, sep)[0]] + Split(t, sep)[1..]
    decreases |a|
  {
    if |a| > 0 {
      SplitPrefix(a[1..], t, sep);
      var parts := Split(t, sep);
      var rest := Split((a + t)[1..], sep);
      assert (a + t)[1..] == a[1..] + t;
      assert rest == [a[1..] + parts[0]] + parts[1..];
      assert (a + t)[0] == a[0] != sep;
      assert Split(a + t, sep) == [[a[0]] + rest[0]] + rest[1..];
      assert [a[0]] + (a[1..] + parts[0]) == a + parts[0];
    } else {
      var parts := Split(t, sep);
      assert a + t == t && a + parts[0] == parts[0];
      assert [parts[0]] + parts[1..] == parts;
    }
  }

  /** Splitting a join of separator-free pieces gives back the pieces. */
  lemma {:induction false} SplitJoin(parts: seq<string>, sep: char)
    requires |parts| >= 1
    requires forall i :: 0 <= i < |parts| ==> sep !in parts[i]
    ensures Split(Join(parts, sep), sep) == parts
    decreases |parts|
  {
    if |parts| == 1 {
      SplitPrefix(parts[0], "", sep);
      assert parts[0] + "" == parts[0];
    } else {
      var tail := Join(parts[1..], sep);
      SplitJoin(parts[1..], sep);
      assert Split([sep] + tail, sep) == [""] + parts[1..];
      SplitPrefix(parts[0], [sep] + tail, sep);
      assert parts[0] + [sep] + tail == parts[0] + ([sep] + tail);
      assert parts[0] + "" == parts[0];
      assert [parts[0]] + parts[1..] == parts;
    }
  }

  /** Joining `parts` splits into the join of all but the last piece, the separator, and the last piece. */
  lemma {:induction false} JoinSnoc(parts: seq<string>, sep: char)
    requires |parts| >= 2
    ensures Join(parts, sep) == Join(parts[..|parts| - 1], sep) + [sep] + parts[|parts| - 1]
    decreases |parts|
  {
    if |parts| > 2 {
      JoinSnoc(parts[1..], sep);
      assert parts[1..][..|parts[1..]| - 1] == parts[..|parts| - 1][1..];
    }
  }

  /** A string containing the separator splits into at least two pieces. */
  lemma SplitOfContaining(s: string, sep: char)
    requires sep in s
    ensures |Split(s, sep)| >= 2
  {
    JoinSplit(s, sep);
  }

  function LowerChar(c: char): char
  {
    if 'A' <= c <= 'Z' then (c as int + 32) as char else c
  }

  /** `s.lower()` on the ASCII letters: each of 'A'..'Z' moves 32 code points up
      to its lower-case letter, every other character stays, and no upper-case
      ASCII letter is left. */
  function Lower(s: string): (r: string)
    ensures |r| == |s|
    ensures forall i :: 0 <= i < |s| && 'A' <= s[i] <= 'Z' ==> r[i] as int == s[i] as int + 32
    ensures forall i :: 0 <= i < |s| && !('A' <= s[i] <= 'Z') ==> r[i] == s[i]
    ensures forall i :: 0 <= i < |r| ==> !('A' <= r[i] <= 'Z')
  {
    seq(|s|, i requires 0 <= i < |s| => LowerChar(s[i]))
  }

  /** Lower-casing twice changes nothing. */
  lemma LowerIdempotent(s: string)
    ensures Lower(Lower(s)) == Lower(s)
  {
    var l := Lower(s);
    assert forall i :: 0 <= i < |l| ==> Lower(l)[i] == l[i];
  }
}

=== FILE: wrappers.dfy ===
/** Option and Result, the failure-carrying datatypes the rest of the model returns. */
module Wrappers {

  datatype Option<+T> = None | Some(value: T)

  /** Either a value or the error the source would raise instead of returning. */
  datatype Result<+R, +E> = Success(value: R) | Failure(error: E)

  function Min(a: int, b: int): int
  {
    if a <= b then a else b
  }
}
